=== FILE: README.md ===
# Cache simulation model

A Dafny model of the cache simulator in `CacheSimulation/CacheSimulation.cpp`.
The simulator replays a memory trace against three caches that share one
geometry:

- a direct-mapped cache;
- a fully associative cache with LRU or FIFO replacement;
- a 2-way set-associative cache with LRU or FIFO replacement.

It counts hits and misses for each cache.

The model covers:

- `Cache_Options`, and the field widths derived from it (`Geometry`);
- `hex_to_binary` and its lookup table (`Hex`), on top of base-2 strings (`Binary`);
- the slicing of an address into the direct-mapped line and tag, the set field and set-associative tag, and the fully associative tag (`Geometry`);
- the direct-mapped state and access (`DirectMap`);
- the fully associative constructor, hit scan and `process_miss` (`FullyAssociative`);
- the set-associative constructor, hit scan and `process_miss` (`SetAssociative`);
- the line vectors shared by both (`Lines`);
- the FIFO cursor update (`Fifo`);
- the per-record step of `trace_file` and the loop over decoded records (`Simulation`);
- concrete runs against the configuration `trace_file` uses (`Scenarios`).

Every operation is a pure function over immutable datatypes. Exceptions the
source would throw while decoding an address (`substr` out of range, `stoi` on
an empty string) become `None`. A write past the end of a line vector becomes
an `Err` value in the as-written variants.

Three behaviours of the code that a reader may not expect, all kept by the model:

- The replacement scan uses `<=` (lines 197 and 271). When stamps tie, it
  picks the *last* line with the smallest stamp, not the first. Filled lines
  always carry distinct stamps (`Lines.LastMinIsStrict`), so this only matters
  for empty lines, which the scan fills first anyway.
- With two lines under FIFO, the trace A, B, C, A, B misses on every access
  (`Scenarios.FifoTwoLineScenario`, which runs the corrected cursor update).
  With the `>` wrap as written, the fifth access of that trace is exactly the
  write past the end shown by `Scenarios.FullyAssociativeOverrunExample`. A hit does not refresh a line's place in
  the FIFO order (`Scenarios.HitProtectsOnlyUnderLru`).
- The set-associative set index is the set field, one bit narrower than the
  line field, divided by the associativity (lines 326 and 378). Only the
  lower half of the sets is ever used. Two addresses that differ only in
  bit 6 share a set and a tag (`Scenarios.BitSixAlias`), so the second one
  hits (`Scenarios.SetAssociativeFalseHit`). The model keeps this behaviour
  as written.

## Model

| member | source | states |
|---|---|---|
| Binary.BinToNat | CacheSimulation/CacheSimulation.cpp:340-341 | `stoi(s, 0, 2)` read as an unbounded natural: an n-bit string has a value below 2^n |
| Binary.NatToBinRoundTrip | CacheSimulation/CacheSimulation.cpp:340-341 | reading the n-bit encoding of any v < 2^n gives back v |
| Binary.BinToNatRoundTrip | CacheSimulation/CacheSimulation.cpp:340-341 | a bit string is re-created exactly from its length and value |
| Binary.SliceValues | CacheSimulation/CacheSimulation.cpp:331-336 | cutting the last n bits off leaves the value shifted right by n; the last n bits read as the value's low n bits |
| Binary.MiddleValue | CacheSimulation/CacheSimulation.cpp:332 | the k bits that end o bits before the end read as bits o..o+k-1 of the value |
| Hex.DigitBits | CacheSimulation/CacheSimulation.cpp:65-82 | a hex digit of either case yields 4 bits whose value is the digit's value; any other character yields the empty string, which is what `operator[]` returns for a missing key |
| Hex.HexToBinary | CacheSimulation/CacheSimulation.cpp:85-91 | the output is a bit string with exactly four bits per hex digit of the input |
| Hex.HexToBinaryValue | CacheSimulation/CacheSimulation.cpp:85-91 | on a string of hex digits, the output has 4 bits per digit and its base-2 value equals the string's hexadecimal value |
| Geometry.LineCount | CacheSimulation/CacheSimulation.cpp:28-32 | `total_line` is the number of whole lines that fit: n lines fit and n+1 do not |
| Geometry.Log2 | CacheSimulation/CacheSimulation.cpp:324-325 | the width is the floor of log2: 2^r <= n < 2^(r+1) |
| Geometry.WidthsOf | CacheSimulation/CacheSimulation.cpp:324-326 | offset and line widths are the floor logs of the line size and the line count |
| Geometry.WidthsOfPowers | CacheSimulation/CacheSimulation.cpp:28-32 | with power-of-two sizes the line count is 2^l and the widths are exactly (o, l) |
| Geometry.SliceFields | CacheSimulation/CacheSimulation.cpp:331-341 | slicing succeeds exactly when the line width is at least 2 and the bit string is longer than offset+line; the line field is below 2^l and the set field below 2^(l-1) |
| Geometry.SliceFieldsAgree | CacheSimulation/CacheSimulation.cpp:331-341 | every sliced field equals the shift-and-mask of the address value (line, tag, set field, set tag, fully associative tag) |
| Geometry.DecodeAddress | CacheSimulation/CacheSimulation.cpp:328-341 | a token decodes exactly when it has its two-character prefix and enough hex digits for offset and line |
| Geometry.DecodeAgrees | CacheSimulation/CacheSimulation.cpp:328-341 | a prefixed token of hex digits decodes to the fields of its hexadecimal value |
| Geometry.SetIndexLowerHalf | CacheSimulation/CacheSimulation.cpp:375-379 | twice the set index stays below the number of sets, so only the lower half of the sets is addressed and the range test never fails |
| Geometry.DirectFieldsIdentifyLine | CacheSimulation/CacheSimulation.cpp:331-336 | the direct-mapped tag and line together are the memory line number, the fully associative tag |
| Lines.FindTag | CacheSimulation/CacheSimulation.cpp:361-368 | the hit scan finds the first line holding the tag, and finds none exactly when the tag is not resident |
| Lines.ScanFrom | CacheSimulation/CacheSimulation.cpp:186-200 | the scan loop stops at the first empty line, otherwise ends on the last line with the smallest stamp |
| Lines.Victim | CacheSimulation/CacheSimulation.cpp:262-274 | the scanned victim is the first empty line if there is one, else the last line with the smallest stamp |
| Lines.WriteKeepsWellFormed | CacheSimulation/CacheSimulation.cpp:189-191 | restamping a resident tag, filling the first empty line or overwriting a filled line keeps tags and stamps distinct and the empty lines a suffix |
| Lines.LastMinIsStrict | CacheSimulation/CacheSimulation.cpp:197-199 | in a full, well-formed vector the scanned minimum is strictly older than every other line |
| Fifo.AdvanceAsWritten | CacheSimulation/CacheSimulation.cpp:211-214 | the `>` update cycles the cursor through size+1 positions, modulo size+1 |
| Fifo.Advance | CacheSimulation/CacheSimulation.cpp:211-214 | the corrected update cycles the cursor through the size line positions, modulo size |
| Fifo.AdvanceVariantsDiffer | CacheSimulation/CacheSimulation.cpp:211-214 | the two updates agree exactly when the cursor is not on the last line; there, the as-written one moves the cursor to size |
| DirectMap.Init | CacheSimulation/CacheSimulation.cpp:139-144 | one `{-1, 0}` entry per line, no hits or misses |
| DirectMap.Access | CacheSimulation/CacheSimulation.cpp:344-356 | an out-of-range index changes nothing; otherwise, when the line holds the tag, `hits` goes up by one, `misses` stays and the line's count goes up by one; when it does not, `misses` goes up by one, `hits` stays, the line takes the tag and its count resets to 0; no other line changes |
| DirectMap.RepeatHits | CacheSimulation/CacheSimulation.cpp:347-350 | repeating an in-range access hits |
| DirectMap.OtherIndexKeeps | CacheSimulation/CacheSimulation.cpp:344-356 | an access to another index leaves a resident line resident |
| FullyAssociative.Init | CacheSimulation/CacheSimulation.cpp:162-168 | one empty line per line of the options, cursor at 0, no hits or misses; valid whenever there is a line |
| FullyAssociative.ProcessMiss | CacheSimulation/CacheSimulation.cpp:174-217 | a miss fills the first empty line; a full LRU cache overwrites a last-minimum line; a full FIFO cache overwrites the cursor's line and moves the cursor on, modulo the size; the miss count and the counter go up by one; a new tag keeps the invariant |
| FullyAssociative.MissKeepsValid | CacheSimulation/CacheSimulation.cpp:186-214 | writing a new tag at the first empty line, or anywhere in a full cache, keeps the invariant |
| FullyAssociative.Access | CacheSimulation/CacheSimulation.cpp:358-372 | a resident tag adds one to `hits` and leaves `misses`, a non-resident one adds one to `misses` and leaves `hits`; the tag is resident afterwards with the fresh stamp, exactly one line changes, and a hit leaves the cursor alone |
| FullyAssociative.LruEvictsLeastRecent | CacheSimulation/CacheSimulation.cpp:203-207 | under LRU a miss on a full cache replaces the line whose stamp is strictly the oldest |
| FullyAssociative.ProcessMissAsWritten | CacheSimulation/CacheSimulation.cpp:174-217 | with the `>` wrap the miss faults exactly when a full FIFO cache has its cursor at the size; on a valid state it agrees with the corrected miss except for the cursor |
| FullyAssociative.AccessAsWritten | CacheSimulation/CacheSimulation.cpp:358-372 | an as-written access faults exactly on a miss in a full FIFO cache whose cursor is at the size |
| FullyAssociative.FifoOverrunAsWritten | CacheSimulation/CacheSimulation.cpp:208-214 | with the cursor on the last line, two misses in a row leave the cursor at the size and then write past the end |
| SetAssociative.Init | CacheSimulation/CacheSimulation.cpp:231-250 | lineCount/assoc sets of assoc empty lines, a cursor vector of assoc + sets*assoc zeros, no hits or misses, valid |
| SetAssociative.ProcessMiss | CacheSimulation/CacheSimulation.cpp:255-288 | LRU fills the first empty way or overwrites a last-minimum way; FIFO overwrites the set's cursor way and moves the cursor modulo the associativity; other sets and cursors are unchanged; a new tag keeps the invariant |
| SetAssociative.LruMissKeepsValid | CacheSimulation/CacheSimulation.cpp:275-279 | an LRU miss on a new tag keeps every set valid |
| SetAssociative.FifoMissKeepsValid | CacheSimulation/CacheSimulation.cpp:280-287 | a FIFO miss on a new tag keeps every set valid, and the cursor stays on the first empty way while there is one |
| SetAssociative.FifoFillsFirstEmpty | CacheSimulation/CacheSimulation.cpp:262-281 | the FIFO branch ignores the scan's empty way, yet writes exactly that way, because the cursor is on it |
| SetAssociative.Access | CacheSimulation/CacheSimulation.cpp:374-396 | an out-of-range set changes nothing; otherwise a tag already in the set adds one to `hits` and leaves `misses`, any other tag adds one to `misses` and leaves `hits`; the tag is in the set afterwards with the fresh stamp, one line of the set changes, and other sets and cursors are unchanged |
| SetAssociative.ProcessMissAsWritten | CacheSimulation/CacheSimulation.cpp:255-288 | with the `>` wrap the miss faults exactly when the FIFO cursor of the set is at the set size; on a valid state it agrees with the corrected miss except for the cursors |
| SetAssociative.AccessAsWritten | CacheSimulation/CacheSimulation.cpp:379-396 | an as-written access faults exactly on a FIFO miss whose set cursor is at the set size |
| SetAssociative.FifoOverrunAsWritten | CacheSimulation/CacheSimulation.cpp:280-286 | with the set's cursor on its last way, two misses in that set leave the cursor at the set size and then write past the end |
| Simulation.Start | CacheSimulation/CacheSimulation.cpp:294-299 | the three caches built from one set of options have the options' sizes and policies and are valid |
| Simulation.Step | CacheSimulation/CacheSimulation.cpp:343-396 | one record keeps all caches valid; the direct-mapped cache is accessed at the line field with the tag field, the fully associative cache with the memory-line tag, and the set-associative cache at the set field over the associativity with the set tag: in each, the tag is held afterwards, a hit or a miss is counted according to whether it was held before, and nothing else changes (an out-of-range index changes nothing); fitting fields in a sized simulation are always in range |
| Simulation.StepToken | CacheSimulation/CacheSimulation.cpp:328-396 | a token steps exactly when it decodes, and then with fields that fit |
| Simulation.StepTokenMatchesAddress | CacheSimulation/CacheSimulation.cpp:328-341 | a well-formed token steps as the fields of its hexadecimal value |
| Simulation.Run | CacheSimulation/CacheSimulation.cpp:313-398 | the record loop stops with `None` at the first token whose decoding would throw, so it completes exactly when every token decodes; a completed replay keeps the invariant and the widths |
| Simulation.RunCounts | CacheSimulation/CacheSimulation.cpp:313-398 | over a completed replay, hits plus misses of every cache grows by the number of records |
| Simulation.StartSized | CacheSimulation/CacheSimulation.cpp:324-326 | power-of-two options give caches sized to the field widths |
| Simulation.TraceFileSized | CacheSimulation/CacheSimulation.cpp:294-299 | the trace configuration has 6 offset bits, 7 line bits, 128 direct-mapped lines and 64 sets |
| Scenarios.TraceFileFields | CacheSimulation/CacheSimulation.cpp:324-336 | in the trace configuration the fields are (a/64)%128, a/8192, (a/64)%64, a/4096 and a/64 |
| Scenarios.TraceFileStep | CacheSimulation/CacheSimulation.cpp:328-396 | with the `trace_file` widths and two ways, a record of address `a` reaches the direct-mapped cache at line `(a/64)%128` with tag `a/8192`, the fully associative cache with memory line `a/64`, and the set-associative cache at set `((a/64)%64)/2` with tag `a/4096`, both indices in range |
| Scenarios.DecodeExample | CacheSimulation/CacheSimulation.cpp:328-341 | `0x00000100` decodes to line 4 and tag 0 |
| Scenarios.RepeatToken | CacheSimulation/CacheSimulation.cpp:328-356 | in the trace configuration, from any valid sized state, an access to `0x00000100` counts a direct-mapped hit exactly when line 4 already holds tag 0, and a miss otherwise, and an immediate repeat always hits |
| Scenarios.DirectMapRepeat | CacheSimulation/CacheSimulation.cpp:344-356 | in the trace configuration a first access to `0x00000100` misses and a repeat hits |
| Scenarios.BitSixAlias | CacheSimulation/CacheSimulation.cpp:375-378 | addresses that differ only in bit 6 get the same set and set tag but different memory lines |
| Scenarios.SetAssociativeFalseHit | CacheSimulation/CacheSimulation.cpp:374-396 | after address a, address a+64 hits in the set-associative cache |
| Scenarios.FifoTwoLineScenario | CacheSimulation/CacheSimulation.cpp:208-214 | two-line FIFO, tags 1,2,3,1,2: five misses |
| Scenarios.HitProtectsOnlyUnderLru | CacheSimulation/CacheSimulation.cpp:203-214 | tags 1,2,1,3: FIFO evicts 1, LRU evicts 2 |
| Scenarios.SetLruScenario | CacheSimulation/CacheSimulation.cpp:262-279 | 2-way LRU set, tags 1,2,1,3: 3 replaces 2 |
| Scenarios.FullyAssociativeOverrunExample | CacheSimulation/CacheSimulation.cpp:208-214 | as written, a two-line FIFO cache writes past its end on the fifth distinct tag |
| Scenarios.SetAssociativeOverrunExample | CacheSimulation/CacheSimulation.cpp:280-286 | as written, a 2-way FIFO set writes past its end on the third distinct tag |

## Left out

- File reading and line splitting in `trace_file` (lines 303-321, 399-403) and the `main` driver (lines 417-427) are I/O. `Simulation.Run` takes the address tokens as a sequence.
- Printing of the results (lines 109-128, 405-414) is output only.
- `get_hit_rate` (lines 105-107) is floating point and feeds only the printout.
- `binaryToHex` (lines 45-62) and the default constructors (lines 136-138, 158-160, 226-230) are never used by the simulation.
- Geometry.Log2: computes the floor of log2 exactly. The source divides two floating-point logarithms and truncates (lines 324-325), so its result depends on rounding, which the model does not reproduce.
- Geometry.DecodeAddress: `stoi` throws `out_of_range` when a field exceeds `int`. Values are unbounded naturals here, so very wide addresses decode instead of throwing.
- DirectMap.Access: the tag is `int` and the per-line count is `int`. Counts and tags are unbounded, and wrap-around is not modelled.
- FullyAssociative.Access: the `unsigned` stamp counter and statistics are unbounded naturals here, so their wrap-around after 2^32 accesses is not modelled. The stamp is also stored into the `int` half of a `pair<int, int>` (lines 152-154 and 220-222), so it already turns negative after 2^31 - 1 stamped accesses and the LRU order breaks there; the model does not capture that either.
- SetAssociative.Access: the same holds for its counter and statistics.
- A `replacement_mode` other than "LRU" or "FIFO" is not modelled; `Policy` has only the two values. With such a mode the fully associative cache still fills an empty line (lines 186-194); a full cache, or any set-associative miss, records the miss and writes nothing.
- A cache with zero lines is left out. The record loop first takes `log(0)` of the line count and converts it to `unsigned` (line 324), which is undefined behaviour; with the usual result 0, the `substr` at line 334 (whose start wraps because `set` is `line - 1`), or else `stoi("")` at line 340, throws on the first record, before any cache is accessed. The fully associative invariant requires at least one line.
- Reading a missing key through `operator[]` inserts it into `hex_lookup`. That side effect does not change any later result, so it is not modelled (`Hex.Lookup` returns the empty string).

## Findings

| source | as written | input that shows it | evidently intended | confidence | as-written member | corrected member |
|---|---|---|---|---|---|---|
| CacheSimulation/CacheSimulation.cpp:212 | `first_out_index > cache.size()` lets the cursor reach `cache.size()` | two-line FIFO cache, distinct tags 1, 2, 3, 4, 5: the fourth miss moves the cursor to 2 and the fifth writes `cache[2]` | `>=`, wrapping to 0 after the last line | high, not executed | FullyAssociative.ProcessMissAsWritten | FullyAssociative.ProcessMiss |
| CacheSimulation/CacheSimulation.cpp:285 | `first_out_indices[bin_set] > cache[bin_set].size()` lets the set cursor reach the set size | 2-way FIFO set, distinct tags 1, 2, 3 in one set: the third miss writes `cache[s][2]` | `>=`, wrapping to 0 after the last way | high, not executed | SetAssociative.ProcessMissAsWritten | SetAssociative.ProcessMiss |

The concrete overruns are exhibited by `FullyAssociative.FifoOverrunAsWritten`,
`Scenarios.FullyAssociativeOverrunExample`, `SetAssociative.FifoOverrunAsWritten`
and `Scenarios.SetAssociativeOverrunExample`. The corrected update is
`Fifo.Advance`, and `Fifo.AdvanceVariantsDiffer` relates it to the as-written
`Fifo.AdvanceAsWritten`. `Simulation` runs the corrected caches.

=== FILE: binary.dfy ===
/** Binary digit strings and their values, as `stoi(s, 0, 2)` reads them. */
module Binary {

  /** 2 to the power `n`. */
  function Pow2(n: nat): (r: nat)
    ensures r >= 1
  {
    if n == 0 then 1 else 2 * Pow2(n - 1)
  }

  /** `a` shifted right by `n` bits, one bit at a time. */
  function Shr(a: nat, n: nat): nat
  {
    if n == 0 then a else Shr(a, n - 1) / 2
  }

  /** The low `n` bits of `a`, least significant first. */
  function Low(a: nat, n: nat): (r: nat)
    ensures r < Pow2(n)
  {
    if n == 0 then 0 else 2 * Low(a / 2, n - 1) + a % 2
  }

  /** Every character is a binary digit. */
  predicate IsBits(s: string)
  {
    forall i :: 0 <= i < |s| ==> s[i] == '0' || s[i] == '1'
  }

  function Bit(c: char): nat
  {
    if c == '1' then 1 else 0
  }

  /** Big-endian value of a bit string; the last character is the least
      significant bit. */
  function BinToNat(s: string): (r: nat)
    ensures r < Pow2(|s|)
  {
    if |s| == 0 then 0 else 2 * BinToNat(s[..|s| - 1]) + Bit(s[|s| - 1])
  }

  /** The `n`-bit big-endian representation of `v` (reference encoding). */
  function NatToBin(v: nat, n: nat): (r: string)
    ensures |r| == n && IsBits(r)
  {
    if n == 0 then "" else NatToBin(v / 2, n - 1) + (if v % 2 == 1 then "1" else "0")
  }

  /** Reading an `n`-bit encoding back gives the value, when it fits. */
  lemma {:induction false} NatToBinRoundTrip(v: nat, n: nat)
    requires v < Pow2(n)
    ensures BinToNat(NatToBin(v, n)) == v
  {
    if n > 0 {
      NatToBinRoundTrip(v / 2, n - 1);
      var s := NatToBin(v, n);
      assert s[..|s| - 1] == NatToBin(v / 2, n - 1);
    }
  }

  /** A bit string is determined by its length and its value. */
  lemma {:induction false} BinToNatRoundTrip(s: string)
    requires IsBits(s)
    ensures NatToBin(BinToNat(s), |s|) == s
  {
    if |s| > 0 {
      var p := s[..|s| - 1];
      assert IsBits(p);
      BinToNatRoundTrip(p);
      var v := BinToNat(s);
      assert v / 2 == BinToNat(p);
      assert s == p + [s[|s| - 1]];
    }
  }

  /** Multiplication by a natural is monotone. */
  lemma {:induction false} MulMonotone(x: nat, y: nat, d: nat)
    ensures x <= y ==> x * d <= y * d
    decreases if x <= y then y - x else 0
  {
    if x < y {
      MulMonotone(x, y - 1, d);
      assert y * d == (y - 1) * d + d;
    }
  }

  /** Division with remainder is unique. */
  lemma DivModUnique(a: nat, d: nat, q: nat, r: nat)
    requires d > 0 && r < d && a == q * d + r
    ensures a / d == q && a % d == r
  {
    var q0, r0 := a / d, a % d;
    assert a == q0 * d + r0;
    assert (q + 1) * d == q * d + d;
    assert (q0 + 1) * d == q0 * d + d;
    MulMonotone(q + 1, q0, d);
    MulMonotone(q0 + 1, q, d);
  }

  /** Nested division. */
  lemma DivDiv(a: nat, x: nat, y: nat)
    requires x >= 1 && y >= 1
    ensures a / (x * y) == (a / x) / y
  {
    var q1, r1 := a / x, a % x;
    var q2, r2 := q1 / y, q1 % y;
    RegroupQuotients(a, x, y, q1, r1, q2, r2);
    RemainderBound(x, y, r1, r2);
    DivModUnique(a, x * y, q2, r2 * x + r1);
  }

  /** Two divisions with remainder combine into one by the product. */
  lemma RegroupQuotients(a: nat, x: nat, y: nat, q1: nat, r1: nat, q2: nat, r2: nat)
    requires a == q1 * x + r1 && q1 == q2 * y + r2
    ensures a == q2 * (x * y) + (r2 * x + r1)
  {
    calc {
      q1 * x;
      (q2 * y + r2) * x;
      (q2 * y) * x + r2 * x;
      q2 * (x * y) + r2 * x;
    }
  }

  /** The combined remainder stays below the product. */
  lemma RemainderBound(x: nat, y: nat, r1: nat, r2: nat)
    requires r1 < x && r2 < y
    ensures r2 * x + r1 < x * y
  {
    MulMonotone(r2, y - 1, x);
    assert (y - 1) * x + x == y * x;
  }

  /** Shifting right by `n` bits divides by `2^n`. */
  lemma {:induction false} ShrDiv(a: nat, n: nat)
    ensures Shr(a, n) == a / Pow2(n)
  {
    if n > 0 {
      ShrDiv(a, n - 1);
      DivDiv(a, Pow2(n - 1), 2);
      assert Pow2(n - 1) * 2 == Pow2(n);
    }
  }

  /** The low `n` bits are the remainder modulo `2^n`. */
  lemma {:induction false} LowMod(a: nat, n: nat)
    ensures Low(a, n) == a % Pow2(n)
  {
    if n > 0 {
      LowMod(a / 2, n - 1);
      ModDouble(a, Pow2(n - 1));
    }
  }

  /** The remainder modulo `2p` is the low bit plus twice the remainder of
      the halved value modulo `p`. */
  lemma ModDouble(a: nat, p: nat)
    requires p >= 1
    ensures a % (2 * p) == 2 * ((a / 2) % p) + a % 2
  {
    var h, b := a / 2, a % 2;
    var q, r := h / p, h % p;
    assert h == q * p + r;
    assert q * (2 * p) == 2 * (q * p);
    assert a == q * (2 * p) + (2 * r + b);
    DivModUnique(a, 2 * p, q, 2 * r + b);
  }

  /** `a` is its high part shifted back left plus its low part. */
  lemma ShrLowSplit(a: nat, n: nat)
    ensures Shr(a, n) * Pow2(n) + Low(a, n) == a
  {
    ShrDiv(a, n);
    LowMod(a, n);
    DivModSplit(a, Pow2(n));
  }

  lemma DivModSplit(a: nat, p: nat)
    requires p >= 1
    ensures (a / p) * p + a % p == a
  {
  }

  /** Shifting by `m` then by `n` is shifting by `m + n`. */
  lemma {:induction false} ShrShr(a: nat, m: nat, n: nat)
    ensures Shr(Shr(a, m), n) == Shr(a, m + n)
  {
    if n > 0 {
      ShrShr(a, m, n - 1);
    }
  }

  lemma ShiftStep(x: nat, pw: nat, y: nat, b: nat)
    ensures 2 * (x * pw + y) + b == x * (2 * pw) + (2 * y + b)
  {
  }

  /** Concatenation shifts the prefix left by the suffix's length. */
  lemma {:induction false} BinConcat(p: string, q: string)
    ensures BinToNat(p + q) == BinToNat(p) * Pow2(|q|) + BinToNat(q)
  {
    if |q| == 0 {
      assert p + q == p;
    } else {
      var q' := q[..|q| - 1];
      var b := Bit(q[|q| - 1]);
      assert (p + q)[..|p + q| - 1] == p + q';
      assert (p + q)[|p + q| - 1] == q[|q| - 1];
      assert BinToNat(p + q) == 2 * BinToNat(p + q') + b;
      assert BinToNat(q) == 2 * BinToNat(q') + b;
      BinConcat(p, q');
      ShiftStep(BinToNat(p), Pow2(|q'|), BinToNat(q'), b);
    }
  }

  /** The value of a prefix is the whole value shifted right by the length of
      what was cut off, and the value of a suffix is the remainder. */
  lemma SliceValues(s: string, n: nat)
    requires n <= |s|
    ensures BinToNat(s[..|s| - n]) == Shr(BinToNat(s), n)
    ensures BinToNat(s[|s| - n..]) == Low(BinToNat(s), n)
  {
    var p, q := s[..|s| - n], s[|s| - n..];
    assert s == p + q;
    BinConcat(p, q);
    DivModUnique(BinToNat(s), Pow2(n), BinToNat(p), BinToNat(q));
    ShrDiv(BinToNat(s), n);
    LowMod(BinToNat(s), n);
  }

  /** A middle slice `s[|s|-o-k .. |s|-o]` reads as bits `o .. o+k-1` of the value. */
  lemma MiddleValue(s: string, o: nat, k: nat)
    requires o + k <= |s|
    ensures BinToNat(s[|s| - o - k..|s| - o]) == Low(Shr(BinToNat(s), o), k)
  {
    var p := s[..|s| - o];
    assert p[|p| - k..] == s[|s| - o - k..|s| - o];
    SliceValues(s, o);
    var pv := BinToNat(p);
    assert pv == Shr(BinToNat(s), o);
    SliceValues(p, k);
    assert BinToNat(p[|p| - k..]) == Low(pv, k);
  }
}

=== FILE: direct_map.dfy ===
/** The direct-mapped cache: one `pair<tag, count>` per line index. */
module DirectMap {
  import Lines

  /** One direct-mapped line: resident tag (`Lines.EmptyTag` when empty) and
      the number of hits since it was loaded. */
  datatype Entry = Entry(tag: int, count: int)

  datatype DmCache = DmCache(entries: seq<Entry>, hits: nat, misses: nat)

  /** The `direct_map(options)` constructor. */
  function Init(lineCount: nat): (c: DmCache)
    ensures |c.entries| == lineCount && c.hits == 0 && c.misses == 0
    ensures forall i :: 0 <= i < lineCount ==> c.entries[i] == Entry(Lines.EmptyTag, 0)
  {
    DmCache(seq(lineCount, _ => Entry(Lines.EmptyTag, 0)), 0, 0)
  }

  /** Line `index` currently holds `tag`. */
  predicate Holds(c: DmCache, index: nat, tag: int)
  {
    index < |c.entries| && c.entries[index].tag == tag
  }

  /** One direct-mapped access. An index outside the cache leaves it
      unchanged. Otherwise the access is a hit exactly when the line holds
      the tag; a miss loads the tag with its count reset; either way exactly
      one of the counters goes up, the line holds the tag afterwards and no
      other line changes. */
  function Access(c: DmCache, index: nat, tag: nat): (r: DmCache)
    ensures |r.entries| == |c.entries|
    ensures index >= |c.entries| ==> r == c
    ensures index < |c.entries| ==>
      && r.hits == c.hits + (if Holds(c, index, tag) then 1 else 0)
      && r.misses == c.misses + (if Holds(c, index, tag) then 0 else 1)
      && Holds(r, index, tag)
      && (forall j :: 0 <= j < |c.entries| && j != index ==> r.entries[j] == c.entries[j])
    ensures index < |c.entries| ==>
      r.entries[index].count == (if Holds(c, index, tag) then c.entries[index].count + 1 else 0)
  {
    if index < |c.entries| then
      var e := c.entries[index];
      if e.tag == tag then
        c.(entries := c.entries[index := Entry(tag, e.count + 1)], hits := c.hits + 1)
      else
        c.(entries := c.entries[index := Entry(tag, 0)], misses := c.misses + 1)
    else c
  }

  /** Repeating an in-range access hits the second time. */
  lemma RepeatHits(c: DmCache, index: nat, tag: nat)
    requires index < |c.entries|
    ensures var r := Access(c, index, tag);
      Access(r, index, tag).hits == r.hits + 1
  {
  }

  /** An access to another index does not disturb a resident line. */
  lemma OtherIndexKeeps(c: DmCache, index: nat, tag: nat, other: nat, otherTag: nat)
    requires Holds(c, index, tag) && other != index
    ensures Holds(Access(c, other, otherTag), index, tag)
  {
  }
}

=== FILE: fifo.dfy ===
/** The FIFO replacement cursor (`first_out_index`, `first_out_indices[s]`). */
module Fifo {

  /** The cursor update as written: step forward, and return to 0 only once
      the cursor exceeds `size`. It cycles through `size + 1` values, one
      more than there are lines. */
  function AdvanceAsWritten(cursor: nat, size: nat): (r: nat)
    ensures cursor <= size ==> r <= size
    ensures cursor <= size ==> r == (cursor + 1) % (size + 1)
  {
    if cursor + 1 > size then 0 else cursor + 1
  }

  /** The corrected update (`>=` in place of `>`): it cycles through exactly
      the `size` line positions. */
  function Advance(cursor: nat, size: nat): (r: nat)
    requires cursor < size
    ensures r < size
    ensures r == (cursor + 1) % size
  {
    if cursor + 1 >= size then 0 else cursor + 1
  }

  /** The two updates differ only at the last line position, where the
      as-written one moves the cursor past the end. */
  lemma AdvanceVariantsDiffer(cursor: nat, size: nat)
    requires cursor < size
    ensures AdvanceAsWritten(cursor, size) == Advance(cursor, size) <==> cursor + 1 < size
    ensures cursor + 1 == size ==> AdvanceAsWritten(cursor, size) == size
  {
  }
}

=== FILE: fully_associative.dfy ===
/** The fully associative cache: one line vector searched linearly, with LRU
    or FIFO replacement once it is full. */
module FullyAssociative {
  import opened Wrappers
  import opened Lines
  import Fifo

  /** Lines, the shared `++counter` stamp source, the statistics, the FIFO
      cursor `first_out_index` and the policy fixed at construction. */
  datatype FaCache = FaCache(lines: seq<Line>, counter: nat, hits: nat, misses: nat, cursor: nat, policy: Policy)

  /** A write the source would make past the end of the line vector. */
  datatype Fault = WriteOutOfBounds(index: nat, size: nat)

  /** The `fully_associative(options, mode)` constructor. */
  function Init(lineCount: nat, policy: Policy): (c: FaCache)
    ensures |c.lines| == lineCount && c.policy == policy
    ensures c.hits == 0 && c.misses == 0 && c.cursor == 0
    ensures forall i :: 0 <= i < lineCount ==> c.lines[i] == Line(EmptyTag, 0)
    ensures lineCount >= 1 ==> Valid(c)
  {
    FaCache(EmptyLines(lineCount), 0, 0, 0, 0, policy)
  }

  /** The state invariant: a non-empty vector, the cursor on a line, the line
      invariant, and the cursor still at 0 while some line is empty (so the
      first eviction takes the oldest line). */
  predicate Valid(c: FaCache)
  {
    && |c.lines| >= 1
    && c.cursor < |c.lines|
    && WellFormed(c.lines, c.counter)
    && (FirstEmpty(c.lines).Some? ==> c.cursor == 0)
  }

  /** `process_miss` with the corrected cursor wrap. The scan stops at the
      first empty line, which is filled; a full cache evicts the last line
      with the smallest stamp (LRU) or the line at the cursor (FIFO). */
  function ProcessMiss(c: FaCache, tag: nat): (r: FaCache)
    requires Valid(c)
    ensures r.misses == c.misses + 1 && r.hits == c.hits
    ensures r.counter == c.counter + 1 && |r.lines| == |c.lines| && r.policy == c.policy
    ensures FirstEmpty(c.lines).Some? ==>
      r.lines == c.lines[FirstEmpty(c.lines).value := Line(tag, r.counter)] && r.cursor == c.cursor
    ensures FirstEmpty(c.lines).None? && c.policy == LRU ==>
      && r.cursor == c.cursor
      && exists k: nat :: IsLastMin(c.lines, |c.lines|, k) && r.lines == c.lines[k := Line(tag, r.counter)]
    ensures FirstEmpty(c.lines).None? && c.policy == FIFO ==>
      r.lines == c.lines[c.cursor := Line(tag, r.counter)] && r.cursor == (c.cursor + 1) % |c.lines|
    ensures !Resident(c.lines, tag) ==> Valid(r)
  {
    var k := Victim(c.lines);
    var atCursor := c.lines[k].tag != EmptyTag && c.policy == FIFO;
    var at := if atCursor then c.cursor else k;
    var cursor := if atCursor then Fifo.Advance(c.cursor, |c.lines|) else c.cursor;
    var r := c.(lines := c.lines[at := Line(tag, c.counter + 1)], counter := c.counter + 1,
                misses := c.misses + 1, cursor := cursor);
    if !Resident(c.lines, tag) then MissKeepsValid(c, tag, at, cursor); r else r
  }

  /** Writing a tag that was not resident at the first empty line (keeping
      the cursor), or at any line of a full cache, keeps the invariant. */
  lemma MissKeepsValid(c: FaCache, tag: nat, at: nat, cursor: nat)
    requires Valid(c) && !Resident(c.lines, tag) && at < |c.lines| && cursor < |c.lines|
    requires FirstEmpty(c.lines).Some? ==> at == FirstEmpty(c.lines).value && cursor == c.cursor
    ensures Valid(c.(lines := c.lines[at := Line(tag, c.counter + 1)], counter := c.counter + 1,
                     misses := c.misses + 1, cursor := cursor))
  {
    WriteKeepsWellFormed(c.lines, c.counter, at, tag);
    NoEmptyAfterWrite(c.lines, at, Line(tag, c.counter + 1));
  }

  /** Restamping the line that holds `tag` keeps the invariant and changes
      only that line. */
  lemma HitKeepsValid(c: FaCache, i: nat, tag: nat)
    requires Valid(c) && i < |c.lines| && c.lines[i].tag == tag
    ensures var r := c.(lines := c.lines[i := Line(tag, c.counter + 1)], counter := c.counter + 1, hits := c.hits + 1);
      && Valid(r)
      && ReplacedAt(c.lines, r.lines, i, Line(tag, r.counter))
  {
    WriteKeepsWellFormed(c.lines, c.counter, i, tag);
    NoEmptyAfterWrite(c.lines, i, Line(tag, c.counter + 1));
  }

  /** Overwriting a line with a filled one leaves no empty line behind when
      there was none before. */
  lemma NoEmptyAfterWrite(lines: seq<Line>, k: nat, l: Line)
    requires k < |lines| && l.tag != EmptyTag
    ensures FirstEmpty(lines).None? ==> FirstEmpty(lines[k := l]).None?
  {
    if FirstEmpty(lines).None? {
      assert !Resident(lines, EmptyTag);
      assert !Resident(lines[k := l], EmptyTag);
    }
  }

  /** One access (the hit scan, then `process_miss`). Exactly one counter
      goes up, the access is a hit exactly when the tag was resident, the
      tag is resident afterwards, exactly one line changes and receives the
      fresh stamp, and a hit does not move the FIFO cursor. */
  function Access(c: FaCache, tag: nat): (r: FaCache)
    requires Valid(c)
    ensures Valid(r)
    ensures |r.lines| == |c.lines| && r.policy == c.policy
    ensures r.hits == c.hits + (if Resident(c.lines, tag) then 1 else 0)
    ensures r.misses == c.misses + (if Resident(c.lines, tag) then 0 else 1)
    ensures Resident(r.lines, tag)
    ensures r.counter == c.counter + 1
    ensures exists k: nat :: ReplacedAt(c.lines, r.lines, k, Line(tag, r.counter))
    ensures Resident(c.lines, tag) ==> r.cursor == c.cursor
  {
    match FindTag(c.lines, tag)
    case Some(i) =>
      HitKeepsValid(c, i, tag);
      c.(lines := c.lines[i := Line(tag, c.counter + 1)], counter := c.counter + 1, hits := c.hits + 1)
    case None =>
      var r := ProcessMiss(c, tag);
      var k := if FirstEmpty(c.lines).Some? then FirstEmpty(c.lines).value
        else if c.policy == FIFO then c.cursor
        else Victim(c.lines);
      assert r.lines == c.lines[k := Line(tag, r.counter)];
      assert r.lines[k].tag == tag;
      assert ReplacedAt(c.lines, r.lines, k, Line(tag, r.counter));
      r
  }

  /** Under LRU a full cache evicts the line whose stamp is strictly the
      smallest: stamps come from a strictly increasing counter, so the
      minimum is unique. */
  lemma LruEvictsLeastRecent(c: FaCache, tag: nat)
    requires Valid(c) && c.policy == LRU && FirstEmpty(c.lines).None? && !Resident(c.lines, tag)
    ensures var r := Access(c, tag);
      exists k: nat :: ReplacedAt(c.lines, r.lines, k, Line(tag, r.counter)) && OldestLine(c.lines, k)
  {
    var k := Victim(c.lines);
    LastMinIsStrict(c.lines, c.counter, k);
    var r := Access(c, tag);
    assert r.lines == c.lines[k := Line(tag, c.counter + 1)];
    assert ReplacedAt(c.lines, r.lines, k, Line(tag, r.counter));
  }

  /** `process_miss` as written, with the `>` wrap test. The cursor then
      stays within `0..size`, and a FIFO eviction at cursor `size` is a
      write past the end of the vector. */
  function ProcessMissAsWritten(c: FaCache, tag: nat): (r: Result<FaCache, Fault>)
    requires |c.lines| >= 1 && c.cursor <= |c.lines|
    ensures r.Err? <==> c.policy == FIFO && FirstEmpty(c.lines).None? && c.cursor == |c.lines|
    ensures r.Ok? ==> r.value.cursor <= |r.value.lines| && |r.value.lines| == |c.lines|
    ensures Valid(c) ==> r.Ok? && r.value == ProcessMiss(c, tag).(cursor := r.value.cursor)
  {
    var stamped := Line(tag, c.counter + 1);
    var c1 := c.(counter := c.counter + 1, misses := c.misses + 1);
    var k := Victim(c.lines);
    if c.lines[k].tag == EmptyTag || c.policy == LRU then
      Ok(c1.(lines := c.lines[k := stamped]))
    else if c.cursor < |c.lines| then
      Ok(c1.(lines := c.lines[c.cursor := stamped], cursor := Fifo.AdvanceAsWritten(c.cursor, |c.lines|)))
    else
      assert c.policy == FIFO && c.cursor == |c.lines|;
      Err(WriteOutOfBounds(c.cursor, |c.lines|))
  }

  /** One access with the as-written miss handling. */
  function AccessAsWritten(c: FaCache, tag: nat): (r: Result<FaCache, Fault>)
    requires |c.lines| >= 1 && c.cursor <= |c.lines|
    ensures r.Ok? ==> r.value.cursor <= |r.value.lines| && |r.value.lines| == |c.lines|
    ensures r.Err? <==> !Resident(c.lines, tag) && c.policy == FIFO && FirstEmpty(c.lines).None? && c.cursor == |c.lines|
  {
    match FindTag(c.lines, tag)
    case Some(i) =>
      Ok(c.(lines := c.lines[i := Line(tag, c.counter + 1)], counter := c.counter + 1, hits := c.hits + 1))
    case None => ProcessMissAsWritten(c, tag)
  }

  /** With the `>` test, a full FIFO cache whose cursor is on the last line
      moves the cursor to `size` on the next eviction, and the eviction after
      that writes past the end. */
  lemma FifoOverrunAsWritten(c: FaCache, t1: nat, t2: nat)
    requires Valid(c) && c.policy == FIFO && FirstEmpty(c.lines).None?
    requires c.cursor == |c.lines| - 1
    requires !Resident(c.lines, t1) && !Resident(c.lines, t2) && t1 != t2
    ensures AccessAsWritten(c, t1).Ok?
    ensures AccessAsWritten(c, t1).value.cursor == |c.lines|
    ensures AccessAsWritten(AccessAsWritten(c, t1).value, t2) == Err(WriteOutOfBounds(|c.lines|, |c.lines|))
  {
    var c1 := AccessAsWritten(c, t1).value;
    assert c1.lines == c.lines[c.cursor := Line(t1, c.counter + 1)];
    NoEmptyAfterWrite(c.lines, c.cursor, Line(t1, c.counter + 1));
    assert !Resident(c1.lines, t2);
  }
}

=== FILE: geometry.dfy ===
/** Cache geometry (`Cache_Options` and the field widths derived from it) and
    the decomposition of an address into the fields each cache consumes. */
module Geometry {
  import opened Wrappers
  import opened Binary
  import opened Hex

  /** `Cache_Options`: total capacity and line size, in bytes. */
  datatype Options = Options(cacheSizeBytes: nat, lineSizeBytes: nat)

  /** `total_line`: how many whole lines fit in the cache. */
  function LineCount(o: Options): (n: nat)
    requires o.lineSizeBytes >= 1
    ensures n * o.lineSizeBytes <= o.cacheSizeBytes < (n + 1) * o.lineSizeBytes
  {
    o.cacheSizeBytes / o.lineSizeBytes
  }

  /** Floor of the base-2 logarithm (the `log(n) / log(2)` conversion to an
      unsigned integer, taken exactly). */
  function Log2(n: nat): (r: nat)
    requires n >= 1
    ensures Pow2(r) <= n < Pow2(r + 1)
  {
    if n == 1 then 0 else 1 + Log2(n / 2)
  }

  lemma {:induction false} Log2OfPow2(k: nat)
    ensures Log2(Pow2(k)) == k
  {
    if k > 0 {
      assert Pow2(k) / 2 == Pow2(k - 1);
      Log2OfPow2(k - 1);
    }
  }

  /** Field widths in bits: `offset` selects a byte within a line and `line`
      a line of the direct-mapped cache; the set field is one bit narrower. */
  datatype Widths = Widths(offsetBits: nat, lineBits: nat)

  function WidthsOf(o: Options): (w: Widths)
    requires o.lineSizeBytes >= 1 && LineCount(o) >= 1
    ensures Pow2(w.offsetBits) <= o.lineSizeBytes < 2 * Pow2(w.offsetBits)
    ensures Pow2(w.lineBits) <= LineCount(o) < 2 * Pow2(w.lineBits)
  {
    Widths(Log2(o.lineSizeBytes), Log2(LineCount(o)))
  }

  /** With power-of-two sizes the widths are exact. */
  lemma WidthsOfPowers(offsetBits: nat, lineBits: nat)
    ensures var o := Options(Pow2(offsetBits + lineBits), Pow2(offsetBits));
      && LineCount(o) == Pow2(lineBits)
      && WidthsOf(o) == Widths(offsetBits, lineBits)
  {
    Pow2Add(offsetBits, lineBits);
    var o := Options(Pow2(offsetBits + lineBits), Pow2(offsetBits));
    DivModUnique(o.cacheSizeBytes, o.lineSizeBytes, Pow2(lineBits), 0);
    Log2OfPow2(offsetBits);
    Log2OfPow2(lineBits);
  }

  lemma {:induction false} Pow2Add(a: nat, b: nat)
    ensures Pow2(a + b) == Pow2(b) * Pow2(a)
  {
    if a > 0 {
      Pow2Add(a - 1, b);
      assert Pow2(a + b) == 2 * Pow2(a - 1 + b);
    }
  }

  /** The integer fields one access produces (`bin_line`, `bin_tag`, the
      undivided `bin_set`, `bin_tag_set_associative`,
      `bin_tag_fully_associative`); the byte offset is sliced but never
      converted, so it is not kept. */
  datatype Fields = Fields(line: nat, tag: nat, setField: nat, saTag: nat, faTag: nat)

  /** `stoi` of the leading bits, all but the last `cut`. */
  function Leading(bits: string, cut: nat): nat
    requires cut <= |bits|
  {
    BinToNat(bits[..|bits| - cut])
  }

  /** `stoi` of the `width` bits that end `skip` bits before the end. */
  function Middle(bits: string, skip: nat, width: nat): (r: nat)
    requires skip + width <= |bits|
    ensures r < Pow2(width)
  {
    BinToNat(bits[|bits| - skip - width..|bits| - skip])
  }

  /** Slicing of the address bit string. `None` stands for the cases where a
      `substr` would throw or `stoi` would be given an empty string. */
  function SliceFields(bits: string, w: Widths): (r: Option<Fields>)
    ensures r.Some? <==> w.lineBits >= 2 && |bits| > w.offsetBits + w.lineBits
    ensures r.Some? ==> r.value.line < Pow2(w.lineBits) && r.value.setField < Pow2(w.lineBits - 1)
  {
    if w.lineBits < 2 || |bits| <= w.offsetBits + w.lineBits then None
    else
      var o, l := w.offsetBits, w.lineBits;
      Some(Fields(
        line := Middle(bits, o, l),
        tag := Leading(bits, o + l),
        setField := Middle(bits, o, l - 1),
        saTag := Leading(bits, o + l - 1),
        faTag := Leading(bits, o)))
  }

  /** The same fields as shifts and remainders of the address value. */
  function FieldsOf(a: nat, w: Widths): Fields
    requires w.lineBits >= 1
  {
    var o, l := w.offsetBits, w.lineBits;
    Fields(
      line := Low(Shr(a, o), l),
      tag := Shr(a, o + l),
      setField := Low(Shr(a, o), l - 1),
      saTag := Shr(a, o + l - 1),
      faTag := Shr(a, o))
  }

  /** Slicing the bit string agrees with arithmetic on its value. */
  lemma SliceFieldsAgree(bits: string, w: Widths)
    requires w.lineBits >= 2 && |bits| > w.offsetBits + w.lineBits
    ensures SliceFields(bits, w) == Some(FieldsOf(BinToNat(bits), w))
  {
    var v := BinToNat(bits);
    SliceFieldsValue(bits, w, v);
    FieldsOfParts(v, w);
  }

  /** The shifted fields, spelled out. */
  lemma FieldsOfParts(v: nat, w: Widths)
    requires w.lineBits >= 1
    ensures var o, l := w.offsetBits, w.lineBits;
      FieldsOf(v, w) == Fields(Low(Shr(v, o), l), Shr(v, o + l), Low(Shr(v, o), l - 1), Shr(v, o + l - 1), Shr(v, o))
  {
  }

  /** The sliced fields, as shifts and remainders of the value `v` of the
      whole bit string. */
  lemma SliceFieldsValue(bits: string, w: Widths, v: nat)
    requires w.lineBits >= 2 && |bits| > w.offsetBits + w.lineBits && v == BinToNat(bits)
    ensures var o, l := w.offsetBits, w.lineBits;
      SliceFields(bits, w).value == Fields(Low(Shr(v, o), l), Shr(v, o + l), Low(Shr(v, o), l - 1), Shr(v, o + l - 1), Shr(v, o))
  {
    SliceLineValue(bits, w, v);
    SliceSetFieldValue(bits, w, v);
    SliceTagValue(bits, w, v);
    SliceSaTagValue(bits, w, v);
    SliceFaTagValue(bits, w, v);
  }

  /* One lemma per sliced field, each with the address value `v` passed in
     so that its proof only has to unfold the one slice it is about. */

  lemma SliceLineValue(bits: string, w: Widths, v: nat)
    requires w.lineBits >= 2 && |bits| > w.offsetBits + w.lineBits && v == BinToNat(bits)
    ensures SliceFields(bits, w).value.line == Low(Shr(v, w.offsetBits), w.lineBits)
  {
    MiddleFieldValue(bits, w.offsetBits, w.lineBits);
  }

  lemma SliceSetFieldValue(bits: string, w: Widths, v: nat)
    requires w.lineBits >= 2 && |bits| > w.offsetBits + w.lineBits && v == BinToNat(bits)
    ensures SliceFields(bits, w).value.setField == Low(Shr(v, w.offsetBits), w.lineBits - 1)
  {
    MiddleFieldValue(bits, w.offsetBits, w.lineBits - 1);
  }

  lemma SliceTagValue(bits: string, w: Widths, v: nat)
    requires w.lineBits >= 2 && |bits| > w.offsetBits + w.lineBits && v == BinToNat(bits)
    ensures SliceFields(bits, w).value.tag == Shr(v, w.offsetBits + w.lineBits)
  {
    PrefixValue(bits, w.offsetBits + w.lineBits);
  }

  lemma SliceSaTagValue(bits: string, w: Widths, v: nat)
    requires w.lineBits >= 2 && |bits| > w.offsetBits + w.lineBits && v == BinToNat(bits)
    ensures SliceFields(bits, w).value.saTag == Shr(v, w.offsetBits + w.lineBits - 1)
  {
    PrefixValue(bits, w.offsetBits + w.lineBits - 1);
  }

  lemma SliceFaTagValue(bits: string, w: Widths, v: nat)
    requires w.lineBits >= 2 && |bits| > w.offsetBits + w.lineBits && v == BinToNat(bits)
    ensures SliceFields(bits, w).value.faTag == Shr(v, w.offsetBits)
  {
    PrefixValue(bits, w.offsetBits);
  }

  lemma MiddleFieldValue(s: string, skip: nat, width: nat)
    requires skip + width <= |s|
    ensures Middle(s, skip, width) == Low(Shr(BinToNat(s), skip), width)
  {
    MiddleValue(s, skip, width);
  }

  lemma PrefixValue(s: string, n: nat)
    requires n <= |s|
    ensures Leading(s, n) == Shr(BinToNat(s), n)
  {
    SliceValues(s, n);
  }

  /** Decoding of one trace address token: drop the two-character prefix,
      expand the hex digits and slice. */
  function DecodeAddress(token: string, w: Widths): (r: Option<Fields>)
    ensures r.Some? <==> |token| >= 2 && w.lineBits >= 2 && 4 * CountHex(token[2..]) > w.offsetBits + w.lineBits
  {
    if |token| < 2 then None else SliceFields(HexToBinary(token[2..]), w)
  }

  /** A token of hex digits decodes to the fields of its hexadecimal value. */
  lemma DecodeAgrees(token: string, w: Widths)
    requires |token| >= 2 && AllHex(token[2..])
    requires w.lineBits >= 2 && 4 * (|token| - 2) > w.offsetBits + w.lineBits
    ensures DecodeAddress(token, w) == Some(FieldsOf(HexValue(token[2..]), w))
  {
    HexToBinaryValue(token[2..]);
    SliceFieldsAgree(HexToBinary(token[2..]), w);
  }

  /** `bin_set / associativity`: the set-associative set index. */
  function SetIndex(f: Fields, assoc: nat): nat
    requires assoc >= 1
  {
    f.setField / assoc
  }

  /** The set field is one bit narrower than the line field, so after the
      division by the associativity only the lower half of the sets is ever
      addressed; in particular the index is always in range. */
  lemma SetIndexLowerHalf(a: nat, w: Widths, assoc: nat)
    requires w.lineBits >= 1 && assoc >= 1 && Pow2(w.lineBits) % assoc == 0
    ensures 2 * SetIndex(FieldsOf(a, w), assoc) < Pow2(w.lineBits) / assoc
  {
    var half := Pow2(w.lineBits - 1);
    assert Pow2(w.lineBits) == 2 * half;
    HalfQuotient(FieldsOf(a, w).setField, half, assoc);
  }

  lemma HalfQuotient(x: nat, half: nat, assoc: nat)
    requires x < half && assoc >= 1 && (2 * half) % assoc == 0
    ensures 2 * (x / assoc) < (2 * half) / assoc
  {
    var sets, si := (2 * half) / assoc, x / assoc;
    assert sets * assoc == 2 * half;
    assert si * assoc <= x;
    assert (2 * si) * assoc < sets * assoc;
    MulMonotone(sets, 2 * si, assoc);
  }

  /** The direct-mapped (tag, index) pair identifies the memory line: it is
      the line number split at the index width. */
  lemma DirectFieldsIdentifyLine(a: nat, w: Widths)
    requires w.lineBits >= 1
    ensures var f := FieldsOf(a, w);
      f.tag * Pow2(w.lineBits) + f.line == f.faTag
  {
    var o, l := w.offsetBits, w.lineBits;
    ShrShr(a, o, l);
    ShrLowSplit(Shr(a, o), l);
  }
}

=== FILE: hex.dfy ===
/** Expansion of a hexadecimal address string into a bit string
    (`hex_to_binary` and its `hex_lookup` table). */
module Hex {
  import opened Binary

  predicate IsHexDigit(c: char)
  {
    '0' <= c <= '9' || 'a' <= c <= 'f' || 'A' <= c <= 'F'
  }

  predicate AllHex(s: string)
  {
    forall i :: 0 <= i < |s| ==> IsHexDigit(s[i])
  }

  /** Numeric value of a hex digit in either case (reference definition). */
  function DigitValue(c: char): (v: nat)
    requires IsHexDigit(c)
    ensures v < 16
  {
    if '0' <= c <= '9' then c as int - '0' as int
    else if 'a' <= c <= 'f' then c as int - 'a' as int + 10
    else c as int - 'A' as int + 10
  }

  /** Big-endian value of a string of hex digits (reference definition). */
  function HexValue(s: string): (v: nat)
    requires AllHex(s)
  {
    if |s| == 0 then 0 else 16 * HexValue(s[..|s| - 1]) + DigitValue(s[|s| - 1])
  }

  /** `tolower` in the "C" locale. */
  function ToLower(c: char): char
  {
    if 'A' <= c <= 'Z' then (c as int - 'A' as int + 'a' as int) as char else c
  }

  /** The `hex_lookup` table read through `operator[]`: a key that is not in
      the table reads as the empty string. */
  function Lookup(c: char): string
  {
    match c
    case '0' => "0000"
    case '1' => "0001"
    case '2' => "0010"
    case '3' => "0011"
    case '4' => "0100"
    case '5' => "0101"
    case '6' => "0110"
    case '7' => "0111"
    case '8' => "1000"
    case '9' => "1001"
    case 'a' => "1010"
    case 'b' => "1011"
    case 'c' => "1100"
    case 'd' => "1101"
    case 'e' => "1110"
    case 'f' => "1111"
    case _ => ""
  }

  /** The bits one input character contributes: its 4-bit big-endian value
      when it is a hex digit of either case, nothing otherwise. */
  function DigitBits(c: char): (r: string)
    ensures IsBits(r)
    ensures IsHexDigit(c) ==> |r| == 4 && BinToNat(r) == DigitValue(c)
    ensures !IsHexDigit(c) ==> r == ""
  {
    var r := Lookup(ToLower(c));
    if |r| == 4 then FourBits(r); r else r
  }

  lemma FourBits(s: string)
    requires |s| == 4
    ensures BinToNat(s) == 8 * Bit(s[0]) + 4 * Bit(s[1]) + 2 * Bit(s[2]) + Bit(s[3])
  {
    assert s[..3][..2][..1][..0] == "";
    assert s[..3][..2][..1] == [s[0]];
    assert s[..3][..2] == [s[0], s[1]];
    assert s[..3] == [s[0], s[1], s[2]];
  }

  /** Number of hex digits in `s`. */
  function CountHex(s: string): nat
  {
    if |s| == 0 then 0 else CountHex(s[..|s| - 1]) + (if IsHexDigit(s[|s| - 1]) then 1 else 0)
  }

  /** `hex_to_binary`: the characters' bit groups, concatenated left to right. */
  function HexToBinary(s: string): (r: string)
    ensures IsBits(r)
    ensures |r| == 4 * CountHex(s)
  {
    if |s| == 0 then "" else HexToBinary(s[..|s| - 1]) + DigitBits(s[|s| - 1])
  }

  /** On a string of hex digits the output has four bits per digit and reads,
      in base 2, as the string's hexadecimal value. */
  lemma {:induction false} HexToBinaryValue(s: string)
    requires AllHex(s)
    ensures |HexToBinary(s)| == 4 * |s|
    ensures BinToNat(HexToBinary(s)) == HexValue(s)
  {
    if |s| > 0 {
      var p, d := s[..|s| - 1], s[|s| - 1];
      assert AllHex(p);
      HexToBinaryValue(p);
      var bp, bd := HexToBinary(p), DigitBits(d);
      assert HexToBinary(s) == bp + bd;
      AppendDigitValue(bp, bd, HexValue(p), DigitValue(d));
    }
  }

  /** Appending four bits to a bit string multiplies its value by 16 and adds
      theirs. */
  lemma AppendDigitValue(bp: string, bd: string, hp: nat, dv: nat)
    requires BinToNat(bp) == hp && |bd| == 4 && BinToNat(bd) == dv
    ensures BinToNat(bp + bd) == 16 * hp + dv
  {
    BinConcat(bp, bd);
    assert Pow2(4) == 16;
  }
}

=== FILE: lines.dfy ===
/** The line vectors shared by the fully associative cache and by each set of
    the set-associative cache: `pair<tag, stamp>` entries, the hit scan and the
    replacement scan of `process_miss`. */
module Lines {
  import opened Wrappers

  /** The tag a line holds until it is first filled. */
  const EmptyTag: int := -1

  /** One cache line: resident tag and recency stamp. */
  datatype Line = Line(tag: int, stamp: int)

  /** Replacement policy (`replacement_mode`). */
  datatype Policy = LRU | FIFO

  /** `n` lines initialised to `{-1, 0}`. */
  function EmptyLines(n: nat): (r: seq<Line>)
    ensures |r| == n
    ensures forall i :: 0 <= i < n ==> r[i] == Line(EmptyTag, 0)
  {
    seq(n, _ => Line(EmptyTag, 0))
  }

  predicate Resident(lines: seq<Line>, tag: int)
  {
    exists i :: 0 <= i < |lines| && lines[i].tag == tag
  }

  /** The hit scan: position of the first line holding `tag`. */
  function FindTag(lines: seq<Line>, tag: int): (r: Option<nat>)
    ensures r.Some? ==> r.value < |lines| && lines[r.value].tag == tag
    ensures r.Some? ==> forall j :: 0 <= j < r.value ==> lines[j].tag != tag
    ensures r.None? <==> !Resident(lines, tag)
  {
    if |lines| == 0 then None
    else if lines[0].tag == tag then Some(0)
    else match FindTag(lines[1..], tag)
      case None => None
      case Some(k) => Some(k + 1)
  }

  /** The first line still holding the empty sentinel. */
  function FirstEmpty(lines: seq<Line>): Option<nat>
  {
    FindTag(lines, EmptyTag)
  }

  /** `k` is the last position holding the smallest stamp among the first
      `n` lines. */
  ghost predicate IsLastMin(lines: seq<Line>, n: nat, k: nat)
    requires n <= |lines|
  {
    && k < n
    && (forall j :: 0 <= j < n ==> lines[k].stamp <= lines[j].stamp)
    && (forall j :: k < j < n ==> lines[k].stamp < lines[j].stamp)
  }

  /** The scan loop of both `process_miss` members, from position `i` with
      `lr` the current `least_recent`: stop at the first empty line, else
      move `least_recent` to every line whose stamp is `<=` its own. */
  function ScanFrom(lines: seq<Line>, i: nat, lr: nat): (r: nat)
    requires i <= |lines| && lr < |lines|
    requires i == 0 ==> lr == 0
    requires i > 0 ==> IsLastMin(lines, i, lr)
    requires forall j :: 0 <= j < i ==> lines[j].tag != EmptyTag
    ensures r < |lines|
    ensures FirstEmpty(lines).Some? ==> r == FirstEmpty(lines).value
    ensures FirstEmpty(lines).None? ==> IsLastMin(lines, |lines|, r)
    decreases |lines| - i
  {
    if i == |lines| then lr
    else if lines[i].tag == EmptyTag then i
    else ScanFrom(lines, i + 1, if lines[i].stamp <= lines[lr].stamp then i else lr)
  }

  /** The line a miss writes when replacement goes by scan: the first empty
      line, otherwise the last line with the smallest stamp. */
  function Victim(lines: seq<Line>): (r: nat)
    requires |lines| >= 1
    ensures r < |lines|
    ensures FirstEmpty(lines).Some? ==> r == FirstEmpty(lines).value
    ensures FirstEmpty(lines).None? ==> IsLastMin(lines, |lines|, r)
  {
    ScanFrom(lines, 0, 0)
  }

  /** `after` is `before` with line `k` replaced by `l`, all others equal. */
  ghost predicate ReplacedAt(before: seq<Line>, after: seq<Line>, k: nat, l: Line)
  {
    && |after| == |before|
    && k < |before|
    && after[k] == l
    && forall j :: 0 <= j < |before| && j != k ==> after[j] == before[j]
  }

  /** Line `k` carries a stamp strictly smaller than every other line's. */
  ghost predicate OldestLine(lines: seq<Line>, k: nat)
  {
    && k < |lines|
    && forall j :: 0 <= j < |lines| && j != k ==> lines[k].stamp < lines[j].stamp
  }

  /** A line is either empty with stamp 0 or holds a tag stamped in
      `1..counter`. */
  predicate LineOk(l: Line, counter: nat)
  {
    || (l.tag == EmptyTag && l.stamp == 0)
    || (l.tag >= 0 && 1 <= l.stamp <= counter)
  }

  /** The invariant the access operations keep on a line vector: lines are
      well formed, filled lines carry pairwise distinct tags and stamps, and
      the empty lines form a suffix. */
  predicate WellFormed(lines: seq<Line>, counter: nat)
  {
    && (forall i :: 0 <= i < |lines| ==> LineOk(lines[i], counter))
    && (forall i, j :: 0 <= i < j < |lines| && lines[j].tag != EmptyTag ==>
          lines[i].tag != EmptyTag && lines[i].tag != lines[j].tag && lines[i].stamp != lines[j].stamp)
  }

  /** Raising the counter keeps the invariant. */
  lemma WellFormedMonotone(lines: seq<Line>, counter: nat, counter': nat)
    requires WellFormed(lines, counter) && counter <= counter'
    ensures WellFormed(lines, counter')
  {
    assert forall i :: 0 <= i < |lines| ==> LineOk(lines[i], counter');
  }

  /** Writing `tag` with the next stamp keeps the invariant when it restamps
      the line already holding `tag`, fills the first empty line, or replaces
      a filled line with a tag that is not resident. */
  lemma WriteKeepsWellFormed(lines: seq<Line>, counter: nat, k: nat, tag: nat)
    requires WellFormed(lines, counter) && k < |lines|
    requires || lines[k].tag == tag
             || (!Resident(lines, tag) && (lines[k].tag != EmptyTag || FirstEmpty(lines) == Some(k)))
    ensures WellFormed(lines[k := Line(tag, counter + 1)], counter + 1)
  {
    var r := lines[k := Line(tag, counter + 1)];
    forall i, j | 0 <= i < j < |r| && r[j].tag != EmptyTag
      ensures r[i].tag != EmptyTag && r[i].tag != r[j].tag && r[i].stamp != r[j].stamp
    {
      if j == k && lines[k].tag == EmptyTag {
        assert lines[i].tag != EmptyTag;
      }
    }
  }

  /** With distinct stamps and no empty line, the smallest stamp is unique:
      the victim is strictly older than every other line. */
  lemma LastMinIsStrict(lines: seq<Line>, counter: nat, k: nat)
    requires WellFormed(lines, counter) && FirstEmpty(lines).None?
    requires IsLastMin(lines, |lines|, k)
    ensures forall j :: 0 <= j < |lines| && j != k ==> lines[k].stamp < lines[j].stamp
  {
    forall j | 0 <= j < |lines| && j != k
      ensures lines[k].stamp < lines[j].stamp
    {
      assert lines[j].tag != EmptyTag && lines[k].tag != EmptyTag;
      if j < k {
        assert lines[j].stamp != lines[k].stamp;
      } else {
        assert lines[k].stamp != lines[j].stamp;
      }
    }
  }
}

=== FILE: scenarios.dfy ===
/** Concrete checks against the configuration `trace_file` runs and small
    replacement scenarios. */
module Scenarios {
  import opened Wrappers
  import opened Binary
  import opened Hex
  import opened Geometry
  import opened Lines
  import DirectMap
  import FullyAssociative
  import SetAssociative
  import opened Simulation

  const W: Widths := Widths(6, 7)

  /** With 6 offset bits and 7 line bits: direct index `(a/64)%128`, direct
      tag `a/8192`, set field `(a/64)%64`, set-associative tag `a/4096` and
      fully associative tag `a/64`. */
  lemma TraceFileFields(a: nat)
    ensures FieldsOf(a, W) == Fields((a / 64) % 128, a / 8192, (a / 64) % 64, a / 4096, a / 64)
  {
    assert Pow2(6) == 64 && Pow2(7) == 128 && Pow2(12) == 4096 && Pow2(13) == 8192;
    ShrDiv(a, 6);
    ShrDiv(a, 12);
    ShrDiv(a, 13);
    LowMod(a / 64, 7);
    LowMod(a / 64, 6);
  }

  /** One record of address `a` in a simulation with the `trace_file` widths
      and two ways: the direct-mapped cache is accessed at line `(a/64)%128`
      with tag `a/8192`, the fully associative cache with the memory line
      `a/64`, and the set-associative cache at set `((a/64)%64)/2` with tag
      `a/4096`; both indices are in range. */
  lemma TraceFileStep(sim: Sim, a: nat)
    requires Valid(sim) && Sized(sim) && sim.widths == W && sim.sa.assoc == 2
    ensures (a / 64) % 128 < |sim.dm.entries| && (a / 64) % 64 / 2 < |sim.sa.sets|
    ensures var r := Step(sim, FieldsOf(a, W));
      && DmRecorded(sim.dm, r.dm, (a / 64) % 128, a / 8192)
      && FaRecorded(sim.fa, r.fa, a / 64)
      && SaRecorded(sim.sa, r.sa, (a / 64) % 64 / 2, a / 4096)
  {
    TraceFileFields(a);
    assert Pow2(6) == 64 && Pow2(7) == 128;
    FieldsInRange(sim, FieldsOf(a, W));
  }

  /** The token `0x00000100` decodes to direct index 4 and tag 0. */
  lemma DecodeExample()
    ensures DecodeAddress("0x00000100", W) == Some(Fields(4, 0, 4, 0, 4))
  {
    var token := "0x00000100";
    assert token[2..] == "00000100";
    assert "0"[..0] == "";
    assert "00"[..1] == "0";
    assert "000"[..2] == "00";
    assert "0000"[..3] == "000";
    assert "00000"[..4] == "0000";
    assert "000001"[..5] == "00000";
    assert "0000010"[..6] == "000001";
    assert "00000100"[..7] == "0000010";
    assert HexValue("000001") == 1;
    assert HexValue("00000100") == 256;
    DecodeAgrees(token, W);
    LineFourFields(HexValue(token[2..]));
  }

  /** Address 256 is byte 0 of memory line 4. The address is a parameter
      equal to 256 rather than the literal, so that the shifts are reasoned
      about through `ShrDiv` instead of being evaluated bit by bit. */
  lemma LineFourFields(a: nat)
    requires a == 256
    ensures FieldsOf(a, W) == Fields(4, 0, 4, 0, 4)
  {
    assert Pow2(6) == 64 && Pow2(12) == 4096 && Pow2(13) == 8192;
    ShrDiv(a, 6);
    ShrDiv(a, 12);
    ShrDiv(a, 13);
    var m := Shr(a, 6);
    assert m == 4;
    assert Shr(a, 12) == 0 && Shr(a, 13) == 0;
    assert Low(m, 7) == 4 && Low(m, 6) == 4;
  }

  /** In any sized simulation with the `trace_file` widths, an access to
      `0x00000100` is a direct-mapped hit exactly when line 4 holds tag 0,
      and an immediate repeat hits. */
  lemma RepeatToken(sim: Sim)
    requires Valid(sim) && Sized(sim) && sim.widths == W
    ensures var s1 := StepToken(sim, "0x00000100");
      && s1.Some?
      && s1.value.dm.hits == sim.dm.hits + (if DirectMap.Holds(sim.dm, 4, 0) then 1 else 0)
      && s1.value.dm.misses == sim.dm.misses + (if DirectMap.Holds(sim.dm, 4, 0) then 0 else 1)
      && var s2 := StepToken(s1.value, "0x00000100");
      && s2.Some? && s2.value.dm.hits == s1.value.dm.hits + 1 && s2.value.dm.misses == s1.value.dm.misses
  {
    DecodeExample();
    assert Pow2(7) == 128;
    var f := Fields(4, 0, 4, 0, 4);
    var s1 := Step(sim, f);
    assert s1.dm == DirectMap.Access(sim.dm, 4, 0);
    assert Step(s1, f).dm == DirectMap.Access(s1.dm, 4, 0);
  }

  /** From `sim`, a first access to `0x00000100` misses in the
      direct-mapped cache and an immediate repeat hits. */
  predicate MissThenHit(sim: Sim)
  {
    && Valid(sim)
    && var s1 := StepToken(sim, "0x00000100");
    && s1.Some? && s1.value.dm.hits == sim.dm.hits && s1.value.dm.misses == sim.dm.misses + 1
    && var s2 := StepToken(s1.value, "0x00000100");
    && s2.Some? && s2.value.dm.hits == s1.value.dm.hits + 1 && s2.value.dm.misses == s1.value.dm.misses
  }

  /** In the `trace_file` configuration, which starts with no hits or misses,
      a first access to `0x00000100` misses in the direct-mapped cache and an
      immediate repeat hits. */
  lemma DirectMapRepeat()
    ensures TraceFileStart().dm.hits == 0 && TraceFileStart().dm.misses == 0
    ensures MissThenHit(TraceFileStart())
  {
    TraceFileSized();
    var s0 := TraceFileStart();
    RepeatToken(s0);
    assert s0.dm.entries[4].tag == EmptyTag;
  }

  /** Addresses that differ only in bit 6 are different memory lines (their
      fully associative tags differ) yet get the same set and the same
      set-associative tag. */
  lemma BitSixAlias(a: nat)
    requires (a / 64) % 2 == 0
    ensures SetIndex(FieldsOf(a, W), 2) == SetIndex(FieldsOf(a + 64, W), 2)
    ensures FieldsOf(a, W).saTag == FieldsOf(a + 64, W).saTag
    ensures FieldsOf(a, W).faTag != FieldsOf(a + 64, W).faTag
  {
    TraceFileFields(a);
    TraceFileFields(a + 64);
    var m := a / 64;
    DivModUnique(a + 64, 64, m + 1, a % 64);
    DivDiv(a, 64, 64);
    DivDiv(a + 64, 64, 64);
    EvenNeighbours(m);
  }

  lemma EvenNeighbours(m: nat)
    requires m % 2 == 0
    ensures (m % 64) / 2 == ((m + 1) % 64) / 2
    ensures m / 64 == (m + 1) / 64
  {
    var j := m / 2;
    assert m == 2 * j;
    DivModUnique(m, 64, j / 32, 2 * (j % 32));
    DivModUnique(m + 1, 64, j / 32, 2 * (j % 32) + 1);
  }

  /** Consequence of the aliasing: in any simulation with these widths and
      two ways, an access to `a + 64` right after an access to `a` (bit 6
      clear) hits in the set-associative cache, although the two addresses
      are different memory lines. */
  lemma SetAssociativeFalseHit(sim: Sim, a: nat)
    requires Valid(sim) && Sized(sim) && sim.widths == W && sim.sa.assoc == 2
    requires (a / 64) % 2 == 0
    ensures var s1 := Step(sim, FieldsOf(a, W));
      Step(s1, FieldsOf(a + 64, W)).sa.hits == s1.sa.hits + 1
  {
    BitSixAlias(a);
    TraceFileFields(a);
    TraceFileFields(a + 64);
    TraceFileStep(sim, a);
    TraceFileStep(Step(sim, FieldsOf(a, W)), a + 64);
  }

  /** The hit scan on two lines. */
  lemma FindTagTwo(a: Line, b: Line, tag: int)
    ensures FindTag([a, b], tag) ==
      if a.tag == tag then Some(0) else if b.tag == tag then Some(1) else None
  {
    assert [a, b][1..] == [b];
    assert [b][1..] == [];
  }

  /** The replacement scan on two lines: first empty, else the later line
      unless the earlier one has the strictly smaller stamp. */
  lemma VictimTwo(a: Line, b: Line)
    ensures Victim([a, b]) ==
      if a.tag == EmptyTag then 0
      else if b.tag == EmptyTag then 1
      else if b.stamp <= a.stamp then 1 else 0
  {
    FindTagTwo(a, b, EmptyTag);
  }

  /** A two-line fully associative cache. */
  function FaTwo(a: Line, b: Line, counter: nat, hits: nat, misses: nat, cursor: nat, policy: Policy): FullyAssociative.FaCache
  {
    FullyAssociative.FaCache([a, b], counter, hits, misses, cursor, policy)
  }

  /** The two-line fully associative cache as constructed. */
  function FaEmpty(policy: Policy): FullyAssociative.FaCache
  {
    FaTwo(Line(EmptyTag, 0), Line(EmptyTag, 0), 0, 0, 0, 0, policy)
  }

  lemma FaInitTwo(policy: Policy)
    ensures FullyAssociative.Init(2, policy) == FaEmpty(policy)
  {
    assert EmptyLines(2) == [Line(EmptyTag, 0), Line(EmptyTag, 0)];
  }

  /* The states the two-line scenarios pass through. */

  function FaHolds1(policy: Policy): FullyAssociative.FaCache
  {
    FaTwo(Line(1, 1), Line(EmptyTag, 0), 1, 0, 1, 0, policy)
  }

  function FaHolds12(policy: Policy): FullyAssociative.FaCache
  {
    FaTwo(Line(1, 1), Line(2, 2), 2, 0, 2, 0, policy)
  }

  function FaHit1(policy: Policy): FullyAssociative.FaCache
  {
    FaTwo(Line(1, 3), Line(2, 2), 3, 1, 2, 0, policy)
  }

  const FifoHolds32: FullyAssociative.FaCache := FaTwo(Line(3, 3), Line(2, 2), 3, 0, 3, 1, FIFO)
  const FifoHolds31: FullyAssociative.FaCache := FaTwo(Line(3, 3), Line(1, 4), 4, 0, 4, 0, FIFO)
  const FifoHolds21: FullyAssociative.FaCache := FaTwo(Line(2, 5), Line(1, 4), 5, 0, 5, 1, FIFO)
  const FifoAfterHit: FullyAssociative.FaCache := FaTwo(Line(3, 4), Line(2, 2), 4, 1, 3, 1, FIFO)
  const LruAfterHit: FullyAssociative.FaCache := FaTwo(Line(1, 3), Line(3, 4), 4, 1, 3, 0, LRU)
  /** As written: both lines evicted once, the cursor has reached 2. */
  const OverrunHolds34: FullyAssociative.FaCache := FaTwo(Line(3, 3), Line(4, 4), 4, 0, 4, 2, FIFO)

  /** A 2-way, two-set cache where only set 0 is used. */
  function SaSetZero(ways: seq<Line>, cursors: seq<nat>, counter: nat, hits: nat, misses: nat, policy: Policy): SetAssociative.SaCache
  {
    SetAssociative.SaCache([ways, [Line(EmptyTag, 0), Line(EmptyTag, 0)]], cursors, 2, counter, hits, misses, policy)
  }

  const NoCursors: seq<nat> := [0, 0, 0, 0, 0, 0]

  /** The 2-way, two-set cache as constructed. */
  function SaEmpty(policy: Policy): SetAssociative.SaCache
  {
    SaSetZero([Line(EmptyTag, 0), Line(EmptyTag, 0)], NoCursors, 0, 0, 0, policy)
  }

  lemma SaInitFour(policy: Policy)
    ensures SetAssociative.Init(4, 2, policy) == SaEmpty(policy)
  {
    assert EmptyLines(2) == [Line(EmptyTag, 0), Line(EmptyTag, 0)];
    assert SetAssociative.Init(4, 2, policy).sets == [[Line(EmptyTag, 0), Line(EmptyTag, 0)], [Line(EmptyTag, 0), Line(EmptyTag, 0)]];
    assert SetAssociative.Init(4, 2, policy).cursors == NoCursors;
  }

  const SetLruHolds1: SetAssociative.SaCache := SaSetZero([Line(1, 1), Line(EmptyTag, 0)], NoCursors, 1, 0, 1, LRU)
  const SetLruHolds12: SetAssociative.SaCache := SaSetZero([Line(1, 1), Line(2, 2)], NoCursors, 2, 0, 2, LRU)
  const SetLruHit1: SetAssociative.SaCache := SaSetZero([Line(1, 3), Line(2, 2)], NoCursors, 3, 1, 2, LRU)
  const SetLruHolds13: SetAssociative.SaCache := SaSetZero([Line(1, 3), Line(3, 4)], NoCursors, 4, 1, 3, LRU)
  const SetFifoHolds1: SetAssociative.SaCache := SaSetZero([Line(1, 1), Line(EmptyTag, 0)], [1, 0, 0, 0, 0, 0], 1, 0, 1, FIFO)
  /** As written: both ways filled, the cursor of set 0 has reached 2. */
  const SetFifoHolds12: SetAssociative.SaCache := SaSetZero([Line(1, 1), Line(2, 2)], [2, 0, 0, 0, 0, 0], 2, 0, 2, FIFO)

  /** Tag 1 fills the first empty line. */
  lemma FifoStep1()
    ensures FullyAssociative.Valid(FaEmpty(FIFO))
    ensures FullyAssociative.Access(FaEmpty(FIFO), 1) == FaHolds1(FIFO)
  {
    var c := FaEmpty(FIFO);
    assert c.lines == [c.lines[0], c.lines[1]];
    FindTagTwo(c.lines[0], c.lines[1], 1);
    VictimTwo(c.lines[0], c.lines[1]);
  }

  /** Tag 2 fills the second line. */
  lemma FifoStep2()
    ensures FullyAssociative.Valid(FaHolds1(FIFO))
    ensures FullyAssociative.Access(FaHolds1(FIFO), 2) == FaHolds12(FIFO)
  {
    var c := FaHolds1(FIFO);
    assert c.lines == [c.lines[0], c.lines[1]];
    FindTagTwo(c.lines[0], c.lines[1], 2);
    VictimTwo(c.lines[0], c.lines[1]);
  }

  /** Tag 3 evicts the line at the cursor, 1. */
  lemma FifoStep3()
    ensures FullyAssociative.Valid(FaHolds12(FIFO))
    ensures FullyAssociative.Access(FaHolds12(FIFO), 3) == FifoHolds32
  {
    var c := FaHolds12(FIFO);
    assert c.lines == [c.lines[0], c.lines[1]];
    FindTagTwo(c.lines[0], c.lines[1], 3);
    VictimTwo(c.lines[0], c.lines[1]);
  }

  /** Tag 1 evicts the line at the cursor, 2. */
  lemma FifoStep4()
    ensures FullyAssociative.Valid(FifoHolds32)
    ensures FullyAssociative.Access(FifoHolds32, 1) == FifoHolds31
  {
    var c := FifoHolds32;
    assert c.lines == [c.lines[0], c.lines[1]];
    FindTagTwo(c.lines[0], c.lines[1], 1);
    VictimTwo(c.lines[0], c.lines[1]);
  }

  /** Tag 2 evicts the line at the cursor, 3. */
  lemma FifoStep5()
    ensures FullyAssociative.Valid(FifoHolds31)
    ensures FullyAssociative.Access(FifoHolds31, 2) == FifoHolds21
  {
    var c := FifoHolds31;
    assert c.lines == [c.lines[0], c.lines[1]];
    FindTagTwo(c.lines[0], c.lines[1], 2);
    VictimTwo(c.lines[0], c.lines[1]);
  }

  /** A hit on 1 restamps it and leaves the cursor. */
  lemma FifoHitStep()
    ensures FullyAssociative.Valid(FaHolds12(FIFO))
    ensures FullyAssociative.Access(FaHolds12(FIFO), 1) == FaHit1(FIFO)
  {
    var c := FaHolds12(FIFO);
    assert c.lines == [c.lines[0], c.lines[1]];
    FindTagTwo(c.lines[0], c.lines[1], 1);
    VictimTwo(c.lines[0], c.lines[1]);
  }

  /** Tag 3 still evicts 1. */
  lemma FifoAfterHitStep()
    ensures FullyAssociative.Valid(FaHit1(FIFO))
    ensures FullyAssociative.Access(FaHit1(FIFO), 3) == FifoAfterHit
  {
    var c := FaHit1(FIFO);
    assert c.lines == [c.lines[0], c.lines[1]];
    FindTagTwo(c.lines[0], c.lines[1], 3);
    VictimTwo(c.lines[0], c.lines[1]);
  }

  /** Tag 1 fills the first empty line. */
  lemma LruStep1()
    ensures FullyAssociative.Valid(FaEmpty(LRU))
    ensures FullyAssociative.Access(FaEmpty(LRU), 1) == FaHolds1(LRU)
  {
    var c := FaEmpty(LRU);
    assert c.lines == [c.lines[0], c.lines[1]];
    FindTagTwo(c.lines[0], c.lines[1], 1);
    VictimTwo(c.lines[0], c.lines[1]);
  }

  /** Tag 2 fills the second line. */
  lemma LruStep2()
    ensures FullyAssociative.Valid(FaHolds1(LRU))
    ensures FullyAssociative.Access(FaHolds1(LRU), 2) == FaHolds12(LRU)
  {
    var c := FaHolds1(LRU);
    assert c.lines == [c.lines[0], c.lines[1]];
    FindTagTwo(c.lines[0], c.lines[1], 2);
    VictimTwo(c.lines[0], c.lines[1]);
  }

  /** A hit on 1 restamps it. */
  lemma LruHitStep()
    ensures FullyAssociative.Valid(FaHolds12(LRU))
    ensures FullyAssociative.Access(FaHolds12(LRU), 1) == FaHit1(LRU)
  {
    var c := FaHolds12(LRU);
    assert c.lines == [c.lines[0], c.lines[1]];
    FindTagTwo(c.lines[0], c.lines[1], 1);
    VictimTwo(c.lines[0], c.lines[1]);
  }

  /** Tag 3 evicts 2, the smaller stamp. */
  lemma LruAfterHitStep()
    ensures FullyAssociative.Valid(FaHit1(LRU))
    ensures FullyAssociative.Access(FaHit1(LRU), 3) == LruAfterHit
  {
    var c := FaHit1(LRU);
    assert c.lines == [c.lines[0], c.lines[1]];
    FindTagTwo(c.lines[0], c.lines[1], 3);
    VictimTwo(c.lines[0], c.lines[1]);
  }

  /** Fully associative FIFO with two lines, tags 1, 2, 3, 1, 2: every access
      misses, since each miss on the full cache evicts the line the next
      access asks for. */
  lemma FifoTwoLineScenario()
    ensures var c := FullyAssociative.Init(2, FIFO);
      var c5 := FullyAssociative.Access(FullyAssociative.Access(FullyAssociative.Access(
        FullyAssociative.Access(FullyAssociative.Access(c, 1), 2), 3), 1), 2);
      c5.hits == 0 && c5.misses == 5
  {
    FaInitTwo(FIFO);
    FifoStep1();
    FifoStep2();
    FifoStep3();
    FifoStep4();
    FifoStep5();
  }

  /** Tags 1, 2, 1, 3 on two lines: under FIFO the hit on 1 does not protect
      it and 3 evicts 1; under LRU the same accesses evict 2. */
  lemma HitProtectsOnlyUnderLru()
    ensures var c := FullyAssociative.Init(2, FIFO);
      FullyAssociative.Access(FullyAssociative.Access(FullyAssociative.Access(
        FullyAssociative.Access(c, 1), 2), 1), 3).lines == [Line(3, 4), Line(2, 2)]
    ensures var c := FullyAssociative.Init(2, LRU);
      FullyAssociative.Access(FullyAssociative.Access(FullyAssociative.Access(
        FullyAssociative.Access(c, 1), 2), 1), 3).lines == [Line(1, 3), Line(3, 4)]
  {
    FaInitTwo(FIFO);
    FaInitTwo(LRU);
    FifoStep1();
    FifoStep2();
    FifoHitStep();
    FifoAfterHitStep();
    LruStep1();
    LruStep2();
    LruHitStep();
    LruAfterHitStep();
  }

  /** Tag 1 fills the first line of set 0. */
  lemma SetLruStep1()
    ensures SetAssociative.Valid(SaEmpty(LRU))
    ensures SetAssociative.Access(SaEmpty(LRU), 0, 1) == SetLruHolds1
  {
    var c := SaEmpty(LRU);
    assert c.sets[0] == [c.sets[0][0], c.sets[0][1]];
    FindTagTwo(c.sets[0][0], c.sets[0][1], 1);
    VictimTwo(c.sets[0][0], c.sets[0][1]);
    var r := SetAssociative.Access(c, 0, 1);
    assert r.sets[0] == [Line(1, 1), Line(EmptyTag, 0)];
    assert r.sets == [r.sets[0], r.sets[1]];
    assert r.cursors == NoCursors;
  }

  /** Tag 2 fills the second line of set 0. */
  lemma SetLruStep2()
    ensures SetAssociative.Valid(SetLruHolds1)
    ensures SetAssociative.Access(SetLruHolds1, 0, 2) == SetLruHolds12
  {
    var c := SetLruHolds1;
    assert c.sets[0] == [c.sets[0][0], c.sets[0][1]];
    FindTagTwo(c.sets[0][0], c.sets[0][1], 2);
    VictimTwo(c.sets[0][0], c.sets[0][1]);
    var r := SetAssociative.Access(c, 0, 2);
    assert r.sets[0] == [Line(1, 1), Line(2, 2)];
    assert r.sets == [r.sets[0], r.sets[1]];
    assert r.cursors == NoCursors;
  }

  /** A hit on 1 restamps it. */
  lemma SetLruHitStep()
    ensures SetAssociative.Valid(SetLruHolds12)
    ensures SetAssociative.Access(SetLruHolds12, 0, 1) == SetLruHit1
  {
    var c := SetLruHolds12;
    assert c.sets[0] == [c.sets[0][0], c.sets[0][1]];
    FindTagTwo(c.sets[0][0], c.sets[0][1], 1);
    VictimTwo(c.sets[0][0], c.sets[0][1]);
    var r := SetAssociative.Access(c, 0, 1);
    assert r.sets[0] == [Line(1, 3), Line(2, 2)];
    assert r.sets == [r.sets[0], r.sets[1]];
    assert r.cursors == NoCursors;
  }

  /** Tag 3 evicts 2, the smaller stamp. */
  lemma SetLruMissStep()
    ensures SetAssociative.Valid(SetLruHit1)
    ensures SetAssociative.Access(SetLruHit1, 0, 3) == SetLruHolds13
  {
    var c := SetLruHit1;
    assert c.sets[0] == [c.sets[0][0], c.sets[0][1]];
    FindTagTwo(c.sets[0][0], c.sets[0][1], 3);
    VictimTwo(c.sets[0][0], c.sets[0][1]);
    var r := SetAssociative.Access(c, 0, 3);
    assert r.sets[0] == [Line(1, 3), Line(3, 4)];
    assert r.sets == [r.sets[0], r.sets[1]];
    assert r.cursors == NoCursors;
  }

  /** 2-way set-associative LRU: with 1 then 2 resident in a set, a hit on 1
      followed by a miss on 3 in the same set evicts 2. */
  lemma SetLruScenario()
    ensures var c := SetAssociative.Init(4, 2, LRU);
      SetAssociative.Access(SetAssociative.Access(SetAssociative.Access(
        SetAssociative.Access(c, 0, 1), 0, 2), 0, 1), 0, 3).sets[0] == [Line(1, 3), Line(3, 4)]
  {
    SaInitFour(LRU);
    SetLruStep1();
    SetLruStep2();
    SetLruHitStep();
    SetLruMissStep();
  }

  /** As written, a two-line fully associative FIFO cache writes past its
      end on the fifth distinct tag. */
  lemma FullyAssociativeOverrunExample()
    ensures var c := FullyAssociative.Init(2, FIFO);
      var r1 := FullyAssociative.AccessAsWritten(c, 1);
      && r1.Ok?
      && var r2 := FullyAssociative.AccessAsWritten(r1.value, 2);
      && r2.Ok?
      && var r3 := FullyAssociative.AccessAsWritten(r2.value, 3);
      && r3.Ok?
      && var r4 := FullyAssociative.AccessAsWritten(r3.value, 4);
      && r4.Ok? && r4.value.cursor == 2
      && FullyAssociative.AccessAsWritten(r4.value, 5) == Err(FullyAssociative.WriteOutOfBounds(2, 2))
  {
    FaInitTwo(FIFO);
    OverrunStep1();
    OverrunStep2();
    OverrunStep3();
    OverrunStep4();
    OverrunStep5();
  }

  lemma OverrunStep1()
    ensures FullyAssociative.AccessAsWritten(FaEmpty(FIFO), 1).Ok?
    ensures FullyAssociative.AccessAsWritten(FaEmpty(FIFO), 1).value == FaHolds1(FIFO)
  {
    var c := FaEmpty(FIFO);
    assert c.lines == [c.lines[0], c.lines[1]];
    FindTagTwo(c.lines[0], c.lines[1], 1);
    VictimTwo(c.lines[0], c.lines[1]);
  }

  lemma OverrunStep2()
    ensures FullyAssociative.AccessAsWritten(FaHolds1(FIFO), 2).Ok?
    ensures FullyAssociative.AccessAsWritten(FaHolds1(FIFO), 2).value == FaHolds12(FIFO)
  {
    var c := FaHolds1(FIFO);
    assert c.lines == [c.lines[0], c.lines[1]];
    FindTagTwo(c.lines[0], c.lines[1], 2);
    VictimTwo(c.lines[0], c.lines[1]);
  }

  lemma OverrunStep3()
    ensures FullyAssociative.AccessAsWritten(FaHolds12(FIFO), 3).Ok?
    ensures FullyAssociative.AccessAsWritten(FaHolds12(FIFO), 3).value == FifoHolds32
  {
    var c := FaHolds12(FIFO);
    assert c.lines == [c.lines[0], c.lines[1]];
    FindTagTwo(c.lines[0], c.lines[1], 3);
    VictimTwo(c.lines[0], c.lines[1]);
  }

  lemma OverrunStep4()
    ensures FullyAssociative.AccessAsWritten(FifoHolds32, 4).Ok?
    ensures FullyAssociative.AccessAsWritten(FifoHolds32, 4).value == OverrunHolds34
  {
    var c := FifoHolds32;
    assert c.lines == [c.lines[0], c.lines[1]];
    FindTagTwo(c.lines[0], c.lines[1], 4);
    VictimTwo(c.lines[0], c.lines[1]);
  }

  lemma OverrunStep5()
    ensures FullyAssociative.AccessAsWritten(OverrunHolds34, 5) == Err(FullyAssociative.WriteOutOfBounds(2, 2))
  {
    var c := OverrunHolds34;
    assert c.lines == [c.lines[0], c.lines[1]];
    FindTagTwo(c.lines[0], c.lines[1], 5);
    VictimTwo(c.lines[0], c.lines[1]);
  }

  /** As written, a 2-way set-associative FIFO cache writes past the end of a
      set on the third distinct tag that maps to it. */
  lemma SetAssociativeOverrunExample()
    ensures var c := SetAssociative.Init(4, 2, FIFO);
      var r1 := SetAssociative.AccessAsWritten(c, 0, 1);
      && r1.Ok?
      && var r2 := SetAssociative.AccessAsWritten(r1.value, 0, 2);
      && r2.Ok? && r2.value.cursors[0] == 2
      && SetAssociative.AccessAsWritten(r2.value, 0, 3) == Err(SetAssociative.WriteOutOfBounds(0, 2, 2))
  {
    SaInitFour(FIFO);
    SetOverrunStep1();
    SetOverrunStep2();
    SetOverrunStep3();
  }

  lemma SetOverrunStep1()
    ensures SetAssociative.AccessAsWritten(SaEmpty(FIFO), 0, 1).Ok?
    ensures SetAssociative.AccessAsWritten(SaEmpty(FIFO), 0, 1).value == SetFifoHolds1
  {
    var c := SaEmpty(FIFO);
    assert c.sets[0] == [c.sets[0][0], c.sets[0][1]];
    FindTagTwo(c.sets[0][0], c.sets[0][1], 1);
    VictimTwo(c.sets[0][0], c.sets[0][1]);
    var r := SetAssociative.AccessAsWritten(c, 0, 1).value;
    assert r.sets[0] == [Line(1, 1), Line(EmptyTag, 0)];
    assert r.sets == [r.sets[0], r.sets[1]];
    assert r.cursors == [1, 0, 0, 0, 0, 0];
  }

  lemma SetOverrunStep2()
    ensures SetAssociative.AccessAsWritten(SetFifoHolds1, 0, 2).Ok?
    ensures SetAssociative.AccessAsWritten(SetFifoHolds1, 0, 2).value == SetFifoHolds12
  {
    var c := SetFifoHolds1;
    assert c.sets[0] == [c.sets[0][0], c.sets[0][1]];
    FindTagTwo(c.sets[0][0], c.sets[0][1], 2);
    VictimTwo(c.sets[0][0], c.sets[0][1]);
    var r := SetAssociative.AccessAsWritten(c, 0, 2).value;
    assert r.sets[0] == [Line(1, 1), Line(2, 2)];
    assert r.sets == [r.sets[0], r.sets[1]];
    assert r.cursors == [2, 0, 0, 0, 0, 0];
  }

  lemma SetOverrunStep3()
    ensures SetAssociative.AccessAsWritten(SetFifoHolds12, 0, 3) == Err(SetAssociative.WriteOutOfBounds(0, 2, 2))
  {
    var c := SetFifoHolds12;
    assert c.sets[0] == [c.sets[0][0], c.sets[0][1]];
    FindTagTwo(c.sets[0][0], c.sets[0][1], 3);
    VictimTwo(c.sets[0][0], c.sets[0][1]);
  }
}

=== FILE: set_associative.dfy ===
/** The set-associative cache: independent sets of `assoc` lines, each with
    its own FIFO cursor, sharing one stamp counter and one pair of
    statistics. */
module SetAssociative {
  import opened Wrappers
  import opened Lines
  import Fifo

  /** Sets, FIFO cursors (`first_out_indices`, indexed by set; the vector is
      longer than the set count), the associativity, the stamp counter, the
      statistics and the policy. */
  datatype SaCache = SaCache(
    sets: seq<seq<Line>>, cursors: seq<nat>, assoc: nat,
    counter: nat, hits: nat, misses: nat, policy: Policy)

  /** A write the source would make past the end of a set's line vector. */
  datatype Fault = WriteOutOfBounds(setIndex: nat, index: nat, size: nat)

  /** The `set_associative(options, associativity, mode)` constructor:
      `lineCount / assoc` sets of empty lines. The cursor vector starts with
      `assoc` zeros and gains one more per line, so it is longer than the
      number of sets; only its first entries are ever used. */
  function Init(lineCount: nat, assoc: nat, policy: Policy): (c: SaCache)
    requires assoc >= 1
    ensures |c.sets| == lineCount / assoc && c.assoc == assoc && c.policy == policy
    ensures forall s :: 0 <= s < |c.sets| ==> c.sets[s] == EmptyLines(assoc)
    ensures |c.cursors| == assoc + |c.sets| * assoc
    ensures forall i :: 0 <= i < |c.cursors| ==> c.cursors[i] == 0
    ensures c.hits == 0 && c.misses == 0
    ensures Valid(c)
  {
    var n := lineCount / assoc;
    var c := SaCache(seq(n, _ => EmptyLines(assoc)), seq(assoc + n * assoc, _ => 0), assoc, 0, 0, 0, policy);
    assert Valid(c) by {
      assert |c.cursors| >= |c.sets| by { MulAtLeast(n, assoc); }
      forall s | 0 <= s < |c.sets| ensures SetOk(c, s) {
        assert c.sets[s] == EmptyLines(assoc);
        assert c.sets[s][0].tag == EmptyTag;
        assert FirstEmpty(c.sets[s]) == Some(0);
      }
    }
    c
  }

  lemma MulAtLeast(n: nat, k: nat)
    requires k >= 1
    ensures n * k >= n
  {
  }

  /** Set `s` is well formed; under FIFO, while the set has an empty line its
      cursor points at the first one. */
  predicate SetOk(c: SaCache, s: nat)
    requires s < |c.sets| && s < |c.cursors|
  {
    && |c.sets[s]| == c.assoc
    && c.cursors[s] < c.assoc
    && WellFormed(c.sets[s], c.counter)
    && (c.policy == FIFO && FirstEmpty(c.sets[s]).Some? ==> FirstEmpty(c.sets[s]) == Some(c.cursors[s]))
  }

  predicate Valid(c: SaCache)
  {
    && c.assoc >= 1
    && |c.cursors| >= |c.sets|
    && forall s :: 0 <= s < |c.sets| ==> SetOk(c, s)
  }

  /** Only set `s` and its cursor may differ between `c` and `r`. */
  predicate OthersUnchanged(c: SaCache, r: SaCache, s: nat)
  {
    && |r.sets| == |c.sets| && |r.cursors| == |c.cursors|
    && r.assoc == c.assoc && r.policy == c.policy
    && (forall t :: 0 <= t < |c.sets| && t != s ==> r.sets[t] == c.sets[t])
    && (forall t :: 0 <= t < |c.cursors| && t != s ==> r.cursors[t] == c.cursors[t])
  }

  /** Sets other than `s` stay valid when only the counter grows. */
  lemma OtherSetsStayOk(c: SaCache, r: SaCache, s: nat)
    requires Valid(c) && s < |c.sets| && OthersUnchanged(c, r, s) && c.counter <= r.counter
    ensures forall t :: 0 <= t < |r.sets| && t != s ==> SetOk(r, t)
  {
    forall t | 0 <= t < |r.sets| && t != s
      ensures SetOk(r, t)
    {
      assert SetOk(c, t);
      WellFormedMonotone(c.sets[t], c.counter, r.counter);
    }
  }

  /** After filling the first empty line `e` of a set whose empty lines form a
      suffix, the first empty line is `e + 1`, or there is none. */
  lemma FillMovesFirstEmpty(lines: seq<Line>, counter: nat, e: nat, l: Line)
    requires WellFormed(lines, counter) && FirstEmpty(lines) == Some(e) && l.tag != EmptyTag
    ensures e + 1 < |lines| ==> FirstEmpty(lines[e := l]) == Some(e + 1)
    ensures e + 1 == |lines| ==> FirstEmpty(lines[e := l]).None?
  {
    var r := lines[e := l];
    if e + 1 < |lines| {
      assert lines[e + 1].tag == EmptyTag;
      assert r[e + 1].tag == EmptyTag;
      assert Resident(r, EmptyTag);
    } else {
      assert !Resident(r, EmptyTag) by {
        forall j | 0 <= j < |r| ensures r[j].tag != EmptyTag {
          if j < e { assert lines[j].tag != EmptyTag; }
        }
      }
    }
  }

  /** `process_miss` with the corrected cursor wrap. LRU writes the first
      empty line of the ways, else the last line with the smallest stamp; FIFO
      writes at the set's cursor whether or not the set has an empty line. */
  function ProcessMiss(c: SaCache, s: nat, tag: nat): (r: SaCache)
    requires Valid(c) && s < |c.sets|
    ensures r.misses == c.misses + 1 && r.hits == c.hits && r.counter == c.counter + 1
    ensures OthersUnchanged(c, r, s)
    ensures c.policy == LRU ==> r.cursors == c.cursors
    ensures c.policy == LRU && FirstEmpty(c.sets[s]).Some? ==>
      r.sets[s] == c.sets[s][FirstEmpty(c.sets[s]).value := Line(tag, r.counter)]
    ensures c.policy == LRU && FirstEmpty(c.sets[s]).None? ==>
      exists k: nat :: IsLastMin(c.sets[s], |c.sets[s]|, k) && r.sets[s] == c.sets[s][k := Line(tag, r.counter)]
    ensures c.policy == FIFO ==>
      && r.sets[s] == c.sets[s][c.cursors[s] := Line(tag, r.counter)]
      && r.cursors[s] == (c.cursors[s] + 1) % c.assoc
    ensures !Resident(c.sets[s], tag) ==> Valid(r)
  {
    assert SetOk(c, s);
    var ways := c.sets[s];
    var c1 := c.(counter := c.counter + 1, misses := c.misses + 1);
    if c.policy == LRU then
      var r := c1.(sets := c.sets[s := ways[Victim(ways) := Line(tag, c.counter + 1)]]);
      if !Resident(ways, tag) then LruMissKeepsValid(c, s, tag); r else r
    else
      var cur := c.cursors[s];
      var r := c1.(sets := c.sets[s := ways[cur := Line(tag, c.counter + 1)]],
                   cursors := c.cursors[s := Fifo.Advance(cur, |ways|)]);
      if !Resident(ways, tag) then FifoMissKeepsValid(c, s, tag); r else r
  }

  /** An LRU miss on a tag that was not resident keeps the invariant. */
  lemma LruMissKeepsValid(c: SaCache, s: nat, tag: nat)
    requires Valid(c) && s < |c.sets| && SetOk(c, s) && c.policy == LRU && !Resident(c.sets[s], tag)
    ensures var ways := c.sets[s];
      Valid(c.(counter := c.counter + 1, misses := c.misses + 1,
               sets := c.sets[s := ways[Victim(ways) := Line(tag, c.counter + 1)]]))
  {
    var ways := c.sets[s];
    var k := Victim(ways);
    var r := c.(counter := c.counter + 1, misses := c.misses + 1, sets := c.sets[s := ways[k := Line(tag, c.counter + 1)]]);
    WriteKeepsWellFormed(ways, c.counter, k, tag);
    OtherSetsStayOk(c, r, s);
    assert SetOk(r, s);
  }

  /** A FIFO miss on a tag that was not resident keeps the invariant: the
      cursor stays on the first empty line while there is one. */
  lemma FifoMissKeepsValid(c: SaCache, s: nat, tag: nat)
    requires Valid(c) && s < |c.sets| && SetOk(c, s) && c.policy == FIFO && !Resident(c.sets[s], tag)
    ensures var ways, cur := c.sets[s], c.cursors[s];
      Valid(c.(counter := c.counter + 1, misses := c.misses + 1,
               sets := c.sets[s := ways[cur := Line(tag, c.counter + 1)]],
               cursors := c.cursors[s := Fifo.Advance(cur, |ways|)]))
  {
    var ways, cur := c.sets[s], c.cursors[s];
    var stamped := Line(tag, c.counter + 1);
    var r := c.(counter := c.counter + 1, misses := c.misses + 1,
                sets := c.sets[s := ways[cur := stamped]],
                cursors := c.cursors[s := Fifo.Advance(cur, |ways|)]);
    WriteKeepsWellFormed(ways, c.counter, cur, tag);
    OtherSetsStayOk(c, r, s);
    if FirstEmpty(ways).Some? {
      FillMovesFirstEmpty(ways, c.counter, cur, stamped);
    } else {
      assert !Resident(ways[cur := stamped], EmptyTag);
    }
    assert SetOk(r, s);
  }

  /** Ignoring the scan's empty line under FIFO loses nothing: while the set
      has an empty line, the cursor is on the first one, so the miss fills
      exactly the line the LRU branch would fill. */
  lemma FifoFillsFirstEmpty(c: SaCache, s: nat, tag: nat)
    requires Valid(c) && s < |c.sets| && c.policy == FIFO && FirstEmpty(c.sets[s]).Some?
    ensures ProcessMiss(c, s, tag).sets[s] == c.sets[s][FirstEmpty(c.sets[s]).value := Line(tag, c.counter + 1)]
    ensures FirstEmpty(c.sets[s]).value == Victim(c.sets[s])
  {
    assert SetOk(c, s);
  }

  /** One set-associative access. An out-of-range set changes nothing.
      Otherwise exactly one counter goes up, the access is a hit exactly when
      the tag was resident in the ways, the tag is resident afterwards, one line
      of that set changes, and every other set and cursor is unchanged. */
  function Access(c: SaCache, s: nat, tag: nat): (r: SaCache)
    requires Valid(c)
    ensures Valid(r)
    ensures s >= |c.sets| ==> r == c
    ensures OthersUnchanged(c, r, s)
    ensures s < |c.sets| ==>
      && r.hits == c.hits + (if Resident(c.sets[s], tag) then 1 else 0)
      && r.misses == c.misses + (if Resident(c.sets[s], tag) then 0 else 1)
      && Resident(r.sets[s], tag)
      && r.counter == c.counter + 1
      && (exists k: nat :: ReplacedAt(c.sets[s], r.sets[s], k, Line(tag, r.counter)))
    ensures s < |c.sets| && Resident(c.sets[s], tag) ==> r.cursors == c.cursors
  {
    if s >= |c.sets| then c
    else
      assert SetOk(c, s);
      var ways := c.sets[s];
      match FindTag(ways, tag)
      case Some(i) =>
        HitKeepsValid(c, s, i, tag);
        c.(sets := c.sets[s := ways[i := Line(tag, c.counter + 1)]], counter := c.counter + 1, hits := c.hits + 1)
      case None =>
        var r := ProcessMiss(c, s, tag);
        var k := if c.policy == FIFO then c.cursors[s]
          else if FirstEmpty(ways).Some? then FirstEmpty(ways).value
          else Victim(ways);
        assert r.sets[s] == ways[k := Line(tag, r.counter)];
        assert r.sets[s][k].tag == tag;
        assert ReplacedAt(ways, r.sets[s], k, Line(tag, r.counter));
        r
  }

  /** Restamping the way that holds `tag` keeps every set valid and changes
      only that way. */
  lemma HitKeepsValid(c: SaCache, s: nat, i: nat, tag: nat)
    requires Valid(c) && s < |c.sets| && i < |c.sets[s]| && c.sets[s][i].tag == tag
    ensures var r := c.(sets := c.sets[s := c.sets[s][i := Line(tag, c.counter + 1)]], counter := c.counter + 1, hits := c.hits + 1);
      && Valid(r)
      && ReplacedAt(c.sets[s], r.sets[s], i, Line(tag, r.counter))
  {
    var ways := c.sets[s];
    var r := c.(sets := c.sets[s := ways[i := Line(tag, c.counter + 1)]], counter := c.counter + 1, hits := c.hits + 1);
    assert SetOk(c, s);
    WriteKeepsWellFormed(ways, c.counter, i, tag);
    OtherSetsStayOk(c, r, s);
    assert FirstEmpty(r.sets[s]) == FirstEmpty(ways) by {
      assert forall j :: 0 <= j < |ways| ==> (r.sets[s][j].tag == EmptyTag <==> ways[j].tag == EmptyTag);
      FindTagSameMarks(ways, r.sets[s], EmptyTag);
    }
    assert SetOk(r, s);
  }

  /** The hit scan gives the same answer on two vectors whose lines agree on
      whether they hold `tag`. */
  lemma {:induction false} FindTagSameMarks(a: seq<Line>, b: seq<Line>, tag: int)
    requires |a| == |b|
    requires forall j :: 0 <= j < |a| ==> (a[j].tag == tag <==> b[j].tag == tag)
    ensures FindTag(a, tag) == FindTag(b, tag)
  {
    if |a| > 0 {
      FindTagSameMarks(a[1..], b[1..], tag);
    }
  }

  /** `process_miss` as written, with the `>` wrap test: a FIFO miss at
      cursor `size` writes past the end of the set. */
  function ProcessMissAsWritten(c: SaCache, s: nat, tag: nat): (r: Result<SaCache, Fault>)
    requires s < |c.sets| && s < |c.cursors| && |c.sets[s]| >= 1 && c.cursors[s] <= |c.sets[s]|
    ensures r.Err? <==> c.policy == FIFO && c.cursors[s] == |c.sets[s]|
    ensures r.Ok? ==> OthersUnchanged(c, r.value, s) && r.value.cursors[s] <= |r.value.sets[s]|
    ensures Valid(c) ==> r.Ok? && r.value == ProcessMiss(c, s, tag).(cursors := r.value.cursors)
  {
    var ways := c.sets[s];
    var stamped := Line(tag, c.counter + 1);
    var c1 := c.(counter := c.counter + 1, misses := c.misses + 1);
    if c.policy == LRU then
      Ok(c1.(sets := c.sets[s := ways[Victim(ways) := stamped]]))
    else if c.cursors[s] < |ways| then
      var cur := c.cursors[s];
      Ok(c1.(sets := c.sets[s := ways[cur := stamped]], cursors := c.cursors[s := Fifo.AdvanceAsWritten(cur, |ways|)]))
    else
      assert Valid(c) ==> SetOk(c, s);
      assert c.policy == FIFO && c.cursors[s] == |ways|;
      Err(WriteOutOfBounds(s, c.cursors[s], |ways|))
  }

  /** One access with the as-written miss handling. */
  function AccessAsWritten(c: SaCache, s: nat, tag: nat): (r: Result<SaCache, Fault>)
    requires s < |c.sets| && s < |c.cursors| && |c.sets[s]| >= 1 && c.cursors[s] <= |c.sets[s]|
    ensures r.Ok? ==> OthersUnchanged(c, r.value, s) && r.value.cursors[s] <= |r.value.sets[s]|
    ensures r.Err? <==> !Resident(c.sets[s], tag) && c.policy == FIFO && c.cursors[s] == |c.sets[s]|
  {
    var ways := c.sets[s];
    match FindTag(ways, tag)
    case Some(i) =>
      Ok(c.(sets := c.sets[s := ways[i := Line(tag, c.counter + 1)]], counter := c.counter + 1, hits := c.hits + 1))
    case None => ProcessMissAsWritten(c, s, tag)
  }

  /** With the `>` test, a FIFO miss with the cursor on the set's last line
      moves the cursor to the set size, and the next miss in that set writes
      past its end. */
  lemma FifoOverrunAsWritten(c: SaCache, s: nat, t1: nat, t2: nat)
    requires s < |c.sets| && s < |c.cursors| && |c.sets[s]| >= 1
    requires c.policy == FIFO && c.cursors[s] == |c.sets[s]| - 1
    requires !Resident(c.sets[s], t1) && !Resident(c.sets[s], t2) && t1 != t2
    ensures AccessAsWritten(c, s, t1).Ok?
    ensures AccessAsWritten(c, s, t1).value.cursors[s] == |c.sets[s]|
    ensures AccessAsWritten(AccessAsWritten(c, s, t1).value, s, t2) == Err(WriteOutOfBounds(s, |c.sets[s]|, |c.sets[s]|))
  {
    var c1 := AccessAsWritten(c, s, t1).value;
    assert c1.sets[s] == c.sets[s][c.cursors[s] := Line(t1, c.counter + 1)];
    assert !Resident(c1.sets[s], t2);
  }
}

=== FILE: simulation.dfy ===
/** The per-record work of `trace_file`: decode the address token once and
    feed the three caches, each with its own fields. */
module Simulation {
  import opened Wrappers
  import opened Binary
  import opened Hex
  import opened Geometry
  import opened Lines
  import DirectMap
  import FullyAssociative
  import SetAssociative

  /** The field widths and the three caches of one trace replay. */
  datatype Sim = Sim(
    widths: Widths,
    dm: DirectMap.DmCache,
    fa: FullyAssociative.FaCache,
    sa: SetAssociative.SaCache)

  /** The caches built from one set of options. */
  function Start(o: Options, faPolicy: Policy, assoc: nat, saPolicy: Policy): (sim: Sim)
    requires o.lineSizeBytes >= 1 && LineCount(o) >= 1 && assoc >= 1
    ensures sim.widths == WidthsOf(o)
    ensures |sim.dm.entries| == LineCount(o) && |sim.fa.lines| == LineCount(o)
    ensures |sim.sa.sets| == LineCount(o) / assoc && sim.sa.assoc == assoc
    ensures sim.fa.policy == faPolicy && sim.sa.policy == saPolicy
    ensures Valid(sim)
  {
    var n := LineCount(o);
    Sim(WidthsOf(o), DirectMap.Init(n), FullyAssociative.Init(n, faPolicy), SetAssociative.Init(n, assoc, saPolicy))
  }

  /** The configuration `trace_file` runs: 8192-byte cache, 64-byte lines,
      fully associative FIFO and 2-way set-associative FIFO. */
  const TraceFileOptions: Options := Options(8192, 64)

  function TraceFileStart(): Sim
  {
    Start(TraceFileOptions, FIFO, 2, FIFO)
  }

  predicate Valid(sim: Sim)
  {
    && FullyAssociative.Valid(sim.fa)
    && SetAssociative.Valid(sim.sa)
  }

  /** The cache sizes match the field widths: the direct-mapped cache has one
      line per line-field value and the set count is the line count divided
      by the associativity. */
  predicate Sized(sim: Sim)
  {
    var lines := Pow2(sim.widths.lineBits);
    && sim.sa.assoc >= 1
    && |sim.dm.entries| == lines
    && lines % sim.sa.assoc == 0
    && |sim.sa.sets| == lines / sim.sa.assoc
  }

  /** The fields fit their widths, as every sliced field does. */
  predicate Fits(f: Fields, w: Widths)
  {
    w.lineBits >= 1 && f.line < Pow2(w.lineBits) && f.setField < Pow2(w.lineBits - 1)
  }

  /** What one access does to the direct-mapped cache at `index` with `tag`:
      nothing when the index is out of range; otherwise the line holds the tag
      afterwards, the hit or the miss is counted according to whether it held
      it before, and no other line changes. */
  predicate DmRecorded(c: DirectMap.DmCache, r: DirectMap.DmCache, index: nat, tag: nat)
  {
    && (index >= |c.entries| ==> r == c)
    && (index < |c.entries| ==>
      && |r.entries| == |c.entries|
      && DirectMap.Holds(r, index, tag)
      && r.hits == c.hits + (if DirectMap.Holds(c, index, tag) then 1 else 0)
      && r.misses == c.misses + (if DirectMap.Holds(c, index, tag) then 0 else 1)
      && (forall j :: 0 <= j < |c.entries| && j != index ==> r.entries[j] == c.entries[j]))
  }

  /** What one access does to the fully associative cache with `tag`: the tag
      is resident afterwards and the hit or the miss is counted according to
      whether it was resident before. */
  predicate FaRecorded(c: FullyAssociative.FaCache, r: FullyAssociative.FaCache, tag: nat)
  {
    && Resident(r.lines, tag)
    && r.hits == c.hits + (if Resident(c.lines, tag) then 1 else 0)
    && r.misses == c.misses + (if Resident(c.lines, tag) then 0 else 1)
  }

  /** What one access does to the set-associative cache at set `s` with
      `tag`: nothing when the set is out of range; otherwise the tag is in set
      `s` afterwards, the hit or the miss is counted according to whether it
      was there before, and every other set and cursor is unchanged. */
  predicate SaRecorded(c: SetAssociative.SaCache, r: SetAssociative.SaCache, s: nat, tag: nat)
  {
    && (s >= |c.sets| ==> r == c)
    && (s < |c.sets| ==>
      && SetAssociative.OthersUnchanged(c, r, s)
      && Resident(r.sets[s], tag)
      && r.hits == c.hits + (if Resident(c.sets[s], tag) then 1 else 0)
      && r.misses == c.misses + (if Resident(c.sets[s], tag) then 0 else 1))
  }

  /** One decoded record: the direct-mapped, fully associative and
      set-associative accesses, in that order, each independent of the others.
      The direct-mapped cache is indexed by the line field and compares the
      tag field, the fully associative cache is keyed by the memory line
      number, and the set-associative cache is indexed by the set field over
      the associativity and compares the set tag. The fully associative cache
      always classifies the access; the other two do when their index is in
      range, which fitting fields in a sized simulation always are. */
  function Step(sim: Sim, f: Fields): (r: Sim)
    requires Valid(sim)
    ensures Valid(r) && r.widths == sim.widths
    ensures Sized(sim) ==> Sized(r)
    ensures r.fa.hits + r.fa.misses == sim.fa.hits + sim.fa.misses + 1
    ensures Sized(sim) && Fits(f, sim.widths) ==>
      && r.dm.hits + r.dm.misses == sim.dm.hits + sim.dm.misses + 1
      && r.sa.hits + r.sa.misses == sim.sa.hits + sim.sa.misses + 1
    ensures Sized(sim) && Fits(f, sim.widths) ==>
      f.line < |sim.dm.entries| && SetIndex(f, sim.sa.assoc) < |sim.sa.sets|
    ensures DmRecorded(sim.dm, r.dm, f.line, f.tag)
    ensures FaRecorded(sim.fa, r.fa, f.faTag)
    ensures SaRecorded(sim.sa, r.sa, SetIndex(f, sim.sa.assoc), f.saTag)
  {
    var r := sim.(
      dm := DirectMap.Access(sim.dm, f.line, f.tag),
      fa := FullyAssociative.Access(sim.fa, f.faTag),
      sa := SetAssociative.Access(sim.sa, SetIndex(f, sim.sa.assoc), f.saTag));
    if Sized(sim) && Fits(f, sim.widths) then FieldsInRange(sim, f); r else r
  }

  /** Fitting fields index inside a sized simulation's direct-mapped cache
      and set vector. */
  lemma FieldsInRange(sim: Sim, f: Fields)
    requires Sized(sim) && Fits(f, sim.widths)
    ensures f.line < |sim.dm.entries| && SetIndex(f, sim.sa.assoc) < |sim.sa.sets|
  {
    var half := Pow2(sim.widths.lineBits - 1);
    assert Pow2(sim.widths.lineBits) == 2 * half;
    HalfQuotient(f.setField, half, sim.sa.assoc);
  }

  /** Decode one address token and step; `None` where the source would
      throw. */
  function StepToken(sim: Sim, token: string): (r: Option<Sim>)
    requires Valid(sim)
    ensures r.Some? ==> Valid(r.value) && r.value.widths == sim.widths
    ensures r.Some? <==> DecodeAddress(token, sim.widths).Some?
    ensures r.Some? ==> r.value == Step(sim, DecodeAddress(token, sim.widths).value)
    ensures r.Some? ==> Fits(DecodeAddress(token, sim.widths).value, sim.widths)
  {
    match DecodeAddress(token, sim.widths)
    case None => None
    case Some(f) => Some(Step(sim, f))
  }

  /** A well-formed token steps exactly as its hexadecimal value's fields. */
  lemma StepTokenMatchesAddress(sim: Sim, token: string)
    requires Valid(sim) && |token| >= 2 && AllHex(token[2..])
    requires sim.widths.lineBits >= 2 && 4 * (|token| - 2) > sim.widths.offsetBits + sim.widths.lineBits
    ensures StepToken(sim, token) == Some(Step(sim, FieldsOf(HexValue(token[2..]), sim.widths)))
  {
    DecodeAgrees(token, sim.widths);
  }

  /** The loop over a trace's address tokens. The replay stops with `None`
      at the first token whose decoding would throw, so it completes exactly
      when every token decodes; a completed replay keeps the invariant and the
      widths. */
  function Run(sim: Sim, tokens: seq<string>): (r: Option<Sim>)
    requires Valid(sim)
    ensures r.Some? ==> Valid(r.value) && r.value.widths == sim.widths
    ensures r.Some? <==> forall i :: 0 <= i < |tokens| ==> DecodeAddress(tokens[i], sim.widths).Some?
    decreases |tokens|
  {
    if |tokens| == 0 then Some(sim)
    else match StepToken(sim, tokens[0])
      case None => None
      case Some(next) =>
        AllDecodeSplit(tokens, sim.widths);
        Run(next, tokens[1..])
  }

  /** Every token decodes exactly when the first one does and every token of
      the rest does. */
  lemma AllDecodeSplit(tokens: seq<string>, w: Widths)
    requires |tokens| > 0
    ensures (forall i :: 0 <= i < |tokens| ==> DecodeAddress(tokens[i], w).Some?) <==>
      DecodeAddress(tokens[0], w).Some? && forall i :: 0 <= i < |tokens[1..]| ==> DecodeAddress(tokens[1..][i], w).Some?
  {
    assert forall i :: 0 <= i < |tokens| - 1 ==> tokens[1..][i] == tokens[i + 1];
  }

  /** Over a completed replay of a sized simulation, each cache classifies
      every access exactly once: hits plus misses grows by the number of
      records, for all three caches. */
  lemma {:induction false} RunCounts(sim: Sim, tokens: seq<string>)
    requires Valid(sim) && Sized(sim)
    ensures Run(sim, tokens).Some? ==> var r := Run(sim, tokens).value;
      && r.dm.hits + r.dm.misses == sim.dm.hits + sim.dm.misses + |tokens|
      && r.fa.hits + r.fa.misses == sim.fa.hits + sim.fa.misses + |tokens|
      && r.sa.hits + r.sa.misses == sim.sa.hits + sim.sa.misses + |tokens|
    decreases |tokens|
  {
    if |tokens| > 0 && Run(sim, tokens).Some? {
      var f := DecodeAddress(tokens[0], sim.widths).value;
      var next := Step(sim, f);
      assert StepToken(sim, tokens[0]) == Some(next);
      assert Fits(f, sim.widths);
      assert Sized(next);
      assert Run(sim, tokens) == Run(next, tokens[1..]);
      RunCounts(next, tokens[1..]);
    }
  }

  /** Power-of-two options give a sized simulation whenever the associativity
      divides the line count. */
  lemma StartSized(offsetBits: nat, lineBits: nat, faPolicy: Policy, assoc: nat, saPolicy: Policy)
    requires lineBits >= 1 && assoc >= 1 && Pow2(lineBits) % assoc == 0
    ensures var o := Options(Pow2(offsetBits + lineBits), Pow2(offsetBits));
      && LineCount(o) >= 1
      && Sized(Start(o, faPolicy, assoc, saPolicy))
      && Start(o, faPolicy, assoc, saPolicy).widths == Widths(offsetBits, lineBits)
  {
    WidthsOfPowers(offsetBits, lineBits);
  }

  /** The configuration `trace_file` runs is sized, with 6 offset bits and
      7 line bits. */
  lemma TraceFileSized()
    ensures TraceFileStart().widths == Widths(6, 7)
    ensures Sized(TraceFileStart())
    ensures |TraceFileStart().dm.entries| == 128 && |TraceFileStart().sa.sets| == 64
  {
    assert Pow2(6) == 64 && Pow2(7) == 128 && Pow2(13) == 8192;
    StartSized(6, 7, FIFO, 2, FIFO);
  }
}

=== FILE: wrappers.dfy ===
/** Small failure-carrying datatypes used across the model. */
module Wrappers {

  /** A value that may be absent: a decode that would throw yields `None`. */
  datatype Option<+T> = None | Some(value: T)

  /** Either a value or a description of what went wrong. */
  datatype Result<+T, +E> = Ok(value: T) | Err(error: E)
}
